=== FILE: README.md ===
# DROP GIF feed builder — Dafny model

This project models the logic inside the scripts that publish DROP's GIPHY uploads as an RSS feed. It is modelled as pure Dafny functions, and the properties the scripts rely on are proved.

- **Publication state** (`Ledger`, scripts/build_rss.js `main`). docs/state.json holds `{day, publishedToday, seen}`, and each run is one read-modify-write step over it:
  - roll over to the new UTC day;
  - keep the candidate ids not already in `seen`;
  - accept at most `DAILY_LIMIT - publishedToday` of them, in discovery order;
  - append the accepted ids to `seen` and count them against the quota;
  - trim `seen` to its newest 80000 entries once it grows past 100000;
  - show the newest 2000 ids, newest first.
- **Discovery** (`Discovery`, the same script):
  - `fetchNewestIdsFromGiphy` walks the search API at offsets 0, 50, … below `maxToFetch` and stops on any of four conditions. The network is a given sequence of page responses.
  - The collected ids are de-duplicated in first-seen order (`Seqs.Dedup`).
  - `loadLocalIds` cleans the lines of data/ids.txt.
  - `main` uses the API ids when there are any, and the local list otherwise.
- **Feed fields** (`Feed`, `Calendar`, `Uri`): `mediaUrl`, `siteLink` (with `encodeURIComponent`), the item fields, and the `todayStr` day key.
- **scripts/build-rss.cjs** (`SearchFeed`, `Xml`):
  - the `xmlEscape` chain of five replacements, which is proved equal to a per-character escape into the predefined entities of XML 1.0 (section 4.6);
  - record normalisation with defaults, and the fetch error cases;
  - per-item link, guid and enclosure.
- **scripts/build-rss.js patch** (`Patch`): only the added lines. These are its own `xmlEscape`, the `/g/` item link, a guid equal to the link, and an escaped enclosure.
- `BuildRss.Main` wires `main` together. Its parameters stand for what the script reads from the outside world:
  - the stored state file;
  - "today";
  - the page responses;
  - the content of data/ids.txt;
  - the environment.

Some behaviours of the script worth knowing when reading the model:
- Discovery is a single search query, walked page by page.
- `seen` holds bare ids, with no publication timestamps.
- docs/state.json is rewritten in place with `writeFileSync`.
- Candidates from the local file are not de-duplicated: a local file that lists a fresh id twice can put it into `seen` twice (`Ledger.ScenarioRepeatedCandidate`).

## Model

| member | source | states |
|---|---|---|
| Seqs.Dedup | scripts/build_rss.js:112-113 | `Array.from(new Set(ids))` holds no id twice, and keeps exactly the values of its input |
| Seqs.DedupFirstSeenOrder | scripts/build_rss.js:112-113 | the de-duplicated ids appear in the order of their first occurrence |
| Seqs.Reverse | scripts/build_rss.js:160 | element `i` of the reversal is element `n-1-i` of the input |
| Seqs.SliceFromEnd | scripts/build_rss.js:153 | `slice(-n)` is the suffix of length `min(n, len)`, and the whole list for `n = 0` |
| Strings.Trim | scripts/build_rss.js:72 | `trim` returns a string no longer than its input with no whitespace at either end |
| Strings.TrimIsPiece | scripts/build_rss.js:72 | what `trim` returns is a contiguous piece of its input, and only whitespace was removed on either side |
| Strings.SplitOn | scripts/build_rss.js:71 | `split` yields at least one piece, and no piece contains the separator |
| Strings.JoinSplit | scripts/build_rss.js:71 | joining the pieces of a split with the separator gives back the string |
| Calendar.Decimal | scripts/build_rss.js:38-41 | the decimal rendering of a number is non-empty digits with no leading zero that read back as the number |
| Calendar.PadStart2 | scripts/build_rss.js:39-40 | `padStart(2, "0")` reaches length two by prepending zeros only |
| Calendar.TodayStr | scripts/build_rss.js:36-42 | `todayStr()` has no contract of its own; Calendar.TodayStrRoundTrip and Calendar.TodayStrInjective state that it is the `YYYY-MM-DD` key, read back and one-to-one |
| Calendar.TodayStrRoundTrip | scripts/build_rss.js:36-42 | for a four-digit year the day key is `YYYY-MM-DD`, and year, month and day read back from it |
| Calendar.TodayStrInjective | scripts/build_rss.js:36-42 | two valid dates give the same day key exactly when they are the same date, so a new day always triggers the rollover |
| Xml.ReplaceChain | scripts/build-rss.cjs:11-16 | the five chained `.replace` calls have no contract of their own; Xml.ChainIsEscape and Xml.ReplaceChainSound state what they compute |
| Xml.Escape | scripts/build-rss.cjs:11-16 | the per-character escape contains no raw `<`, `>`, `"` or `'` and is never shorter than its input |
| Xml.ChainIsEscape | scripts/build-rss.cjs:11-16 | the five replacements in source order (`&` first) compute exactly the per-character escape |
| Xml.UnescapeEscape | scripts/build-rss.cjs:11-16 | decoding the five predefined entities gives back the escaped string |
| Xml.EscapeAmpersands | scripts/build-rss.cjs:12 | every `&` in the escaped text begins one of `&amp; &lt; &gt; &quot; &apos;` |
| Xml.EscapeKeepsLength | scripts/build-rss.cjs:11-16 | the escape keeps the length exactly when there is nothing to escape, and then returns its input |
| Xml.ReplaceChainSound | scripts/build-rss.cjs:11-16 | `xmlEscape` as written: no raw markup, entity-only ampersands, decoding round trip, length bound, identity on safe text |
| Uri.EncodeComponent | scripts/build_rss.js:84 | `encodeURIComponent` leaves only unreserved characters and `%`, so no `&`, `<`, `/`, `?` or `=` survives |
| Uri.EncodeUnescaped | scripts/build_rss.js:84 | an id made of unreserved characters is not changed by the encoding |
| Uri.EncodeCharEscaped | scripts/build_rss.js:84 | a reserved character becomes one to four `%XX` triples, triple `k` being byte `k` of its UTF-8 encoding |
| Uri.PercentByte | scripts/build_rss.js:84 | `%XX` is `%` followed by two upper-case hex digits from `0123456789ABCDEF` that read back as the byte |
| Uri.PercentBytes | scripts/build_rss.js:84 | one `%XX` triple per byte, in byte order |
| Ledger.DailyLimit | scripts/build_rss.js:25 | the limit is 100 when unset, the configured value when that is positive, and exactly 1 otherwise |
| Ledger.LoadState | scripts/build_rss.js:52-61 | a missing or corrupt file gives `{today, 0, []}`; a stored record is kept, with a missing `seen` read as empty |
| Ledger.Rollover | scripts/build_rss.js:122-126 | afterwards `day` is today; on a new day the count is 0, on the same day nothing changes; `seen` is never touched |
| Ledger.FreshIds | scripts/build_rss.js:143 | the new ids are candidates that are not in `seen`, and every such candidate is kept |
| Ledger.FreshIdsConcat | scripts/build_rss.js:143 | the filter preserves candidate order: filtering a concatenation concatenates the filtered parts |
| Ledger.FreshIdsDistinct | scripts/build_rss.js:143 | distinct candidates give distinct new ids |
| Ledger.Slots | scripts/build_rss.js:144 | `publishedToday + slots = max(publishedToday, DAILY_LIMIT)`, and slots are 0 exactly when the limit is reached |
| Ledger.Take | scripts/build_rss.js:145 | `slice(0, slots)` is the prefix of length `min(len, slots)` |
| Ledger.Trim | scripts/build_rss.js:151-154 | the trimmed history is a suffix; it is unchanged up to 100000 entries and exactly the newest 80000 beyond that |
| Ledger.Commit | scripts/build_rss.js:148-155 | the count grows by the number accepted; nothing changes when none are; otherwise the history is a suffix of `seen + take` of at most 100000 entries, equal to `seen + take` when no trim occurs |
| Ledger.Window | scripts/build_rss.js:159-160 | the feed shows `min(2000, len)` ids, and entry `i` is the `i`-th newest id of `seen` |
| Ledger.Run | scripts/build_rss.js:121-160 | one run sets the day to today, accepts no more ids than there are candidates, and shows at most 2000 ids; Ledger.RunTake, RunQuota, RunAppendOnly, RunDistinct, RunWindow and RunIdempotent state the rest |
| Ledger.RunTake | scripts/build_rss.js:142-145 | the accepted ids are the longest prefix of the unseen candidates the quota allows; a fresh candidate is left out only when the quota is used up |
| Ledger.RunQuota | scripts/build_rss.js:122-149 | the count grows by exactly the number accepted; a run that starts within the limit ends within it, and a new day starts from zero |
| Ledger.RunAppendOnly | scripts/build_rss.js:147-155 | with no trim, `seen' = seen + take`; a run that accepts nothing leaves the rolled-over state unchanged; an accepting run keeps at most 100000 ids |
| Ledger.RunDistinct | scripts/build_rss.js:143-160 | distinct `seen` and distinct candidates give a distinct new `seen` and a distinct feed |
| Ledger.WindowDistinct | scripts/build_rss.js:160 | the window of a duplicate-free history is duplicate-free |
| Ledger.RunWindow | scripts/build_rss.js:157-160 | the feed is the newest `min(2000, len)` ids, newest first, headed by the last id accepted |
| Ledger.RunIdempotent | scripts/build_rss.js:121-160 | a second run on the same day with the same candidates accepts nothing and leaves state and feed unchanged, when the first run did not trim |
| Ledger.ScenarioQuotaCutsOff | scripts/build_rss.js:142-160 | with limit 2 and candidates A, B, C on an empty ledger, A and B are accepted and C is left for later |
| Ledger.ScenarioQuotaExhausted | scripts/build_rss.js:142-160 | with the quota used up, B, C, D change nothing and the feed stays B, A |
| Ledger.ScenarioRepeatedCandidate | scripts/build_rss.js:143-150 | a candidate listed twice is accepted and recorded twice |
| Discovery.OffsetBelowMax | scripts/build_rss.js:96 | offset `50k` is requested exactly when `k < ceil(maxToFetch / 50)` |
| Discovery.PageIds | scripts/build_rss.js:106-108 | a page contributes at most one id per record, and no empty id; Discovery.PageIdsMembers and Discovery.PageIdsConcat fix which ids and in what order |
| Discovery.PageIdsMembers | scripts/build_rss.js:106-108 | a page contributes only ids of truthy records with a truthy id, and every such id |
| Discovery.PageIdsConcat | scripts/build_rss.js:106-108 | `ids.push` keeps record order: the ids of a concatenation are the ids of the parts, in order |
| Discovery.Paginate | scripts/build_rss.js:95-110 | from request `k` on, a request is made exactly when offset `50 * k` is below `maxToFetch`, each request consumes one response, and a rejection only follows a request |
| Discovery.PaginateStep | scripts/build_rss.js:101-109 | a full page is followed by the next request; any other response ends the loop with that page's ids, and a rejection escapes |
| Discovery.PaginateBound | scripts/build_rss.js:96 | at most `ceil(maxToFetch / 50)` requests, and none when `maxToFetch <= 0` |
| Discovery.PaginateStops | scripts/build_rss.js:102-109 | the loop continues only past full pages; an early stop is on a non-ok, empty, missing-data or short page; a rejection comes only from the last request |
| Discovery.PaginateHarvest | scripts/build_rss.js:106-108 | the pushed ids are the truthy ids of the requested pages, in page order |
| Discovery.PaginateNonEmpty | scripts/build_rss.js:107 | every pushed id is non-empty |
| Discovery.FetchPages | scripts/build_rss.js:95-110 | the `for` loop computes exactly the pagination result and pushes only non-empty ids |
| Discovery.NewestIds | scripts/build_rss.js:88-114 | without credentials the result is no ids; a rejection only follows a request; the ids returned are distinct and non-empty; Discovery.NewestIdsExact ties the result to the pages |
| Discovery.NewestIdsExact | scripts/build_rss.js:96-113 | with credentials, the call rejects exactly when the last response received was a rejection, and otherwise returns the truthy ids of the requested pages de-duplicated in first-seen order |
| Discovery.FetchNewestIdsFromGiphy | scripts/build_rss.js:88-114 | without credentials, no ids and no request; otherwise at most `ceil(maxToFetch / 50)` requests and distinct non-empty ids, or the rejection |
| Discovery.DropCarriageReturn | scripts/build_rss.js:71 | the `\r?` of the separator removes one trailing character of a line exactly when that character is `\r`, and otherwise nothing |
| Discovery.SplitLines | scripts/build_rss.js:71 | `split(/\r?\n/)` gives the `\n`-separated pieces in order, each but the last without its trailing `\r`, none containing `\n` |
| Discovery.TrimLines | scripts/build_rss.js:72 | `map(s => s.trim())`: one trimmed line per line, in order |
| Discovery.TrimLinesConcat | scripts/build_rss.js:72 | the map keeps line order over a concatenation |
| Discovery.NonBlank | scripts/build_rss.js:73 | `filter(Boolean)` keeps exactly the non-empty strings |
| Discovery.NonBlankConcat | scripts/build_rss.js:73 | the filter keeps order: filtering a concatenation concatenates the filtered parts |
| Discovery.CleanLines | scripts/build_rss.js:72-73 | every cleaned id is non-empty and trimmed, and there are no more ids than lines |
| Discovery.CleanLinesIsMapFilter | scripts/build_rss.js:72-73 | the recursive cleaning is exactly `map(trim)` followed by `filter(Boolean)` |
| Discovery.CleanLinesFromLines | scripts/build_rss.js:72-73 | every cleaned id is the trimmed text of some line |
| Discovery.CleanLinesConcat | scripts/build_rss.js:72-73 | cleaning keeps line order: cleaning a concatenation concatenates the cleaned parts |
| Discovery.CleanLinesKeep | scripts/build_rss.js:72-73 | every non-blank line yields its trimmed form among the ids |
| Discovery.LocalIds | scripts/build_rss.js:67-74 | no file gives no ids; every local id is non-empty, trimmed and the trimmed text of a line of the file |
| Discovery.LocalIdsAreLines | scripts/build_rss.js:67-74 | every local id is the trimmed text of some line of the file and holds no line break, and every non-blank line appears trimmed |
| Discovery.SelectCandidates | scripts/build_rss.js:130-140 | the API ids are used when there are any; the local list is used when the API gives none or rejects |
| Discovery.CandidatesWellFormed | scripts/build_rss.js:130-140 | every candidate is non-empty, and the candidates are distinct when they come from the API |
| Feed.SiteUrl | scripts/build_rss.js:20 | an unset or empty `SITE_URL` gives `https://xrp-drop.com`, and a configured one is used unchanged |
| Feed.StripTrailingSlashes | scripts/build_rss.js:84 | `replace(/\/+$/, "")` removes trailing slashes and nothing else |
| Feed.MediaUrl | scripts/build_rss.js:78-80 | the media URL is the id between `https://media.giphy.com/media/` and `/giphy.gif` |
| Feed.SiteLink | scripts/build_rss.js:83-85 | the link is the site URL without trailing slashes, then `/gifs?g=`, then a query value of unreserved characters and `%` only, at least as long as the id |
| Feed.MediaUrlInjective | scripts/build_rss.js:78-80 | distinct ids have distinct media URLs |
| Feed.SiteLinkShape | scripts/build_rss.js:83-85 | trailing slashes on the site URL do not change the link, and an unreserved id appears verbatim after `/gifs?g=` |
| Feed.SiteLinkInjective | scripts/build_rss.js:83-85 | distinct unreserved ids have distinct site links |
| Feed.Items | scripts/build_rss.js:166-177 | one item per feed id, in feed order |
| Feed.ItemsIdentifyIds | scripts/build_rss.js:166-177 | distinct feed ids give items with distinct guids and distinct enclosures |
| SearchFeed.Normalize | scripts/build-rss.cjs:27-32 | the id is copied; the title is never empty and falls back to "Memecoin XRP GIF by $DROP"; the media URL falls back to "" |
| SearchFeed.NormalizeAll | scripts/build-rss.cjs:27 | one normalised record per upstream record, in order |
| SearchFeed.FetchGifs | scripts/build-rss.cjs:24-32 | a non-ok response is the HTTP error, not an empty list; a `null` body or a non-array `data` is a TypeError; a falsy `data` gives no records; an array gives exactly the normalised records, one per element in order, with the same ids |
| SearchFeed.DeriveItem | scripts/build-rss.cjs:38-49 | link and guid are both `https://xrp-drop.com/gifs/` plus the id; the enclosure is free of raw markup and decodes to the media URL |
| SearchFeed.BuildItems | scripts/build-rss.cjs:38-49 | one item per record, in upstream order |
| SearchFeed.GuidsDistinct | scripts/build-rss.cjs:39-45 | records with distinct present ids get distinct guids |
| SearchFeed.MissingIdCollides | scripts/build-rss.cjs:28-39 | a record without an id gets the same guid as one whose id is "undefined" |
| Patch.XmlEscape | scripts/build-rss.js:1-3 | the patch's escape leaves no raw markup and only entity ampersands, decodes back, is never shorter, and leaves safe text unchanged |
| Patch.ItemLink | scripts/build-rss.js:7-8 | the item link is `https://xrp-drop.com/g/` followed by the GIF id |
| Patch.PatchedItem | scripts/build-rss.js:7-28 | the guid equals the link; the enclosure is `xmlEscape(mediaUrl)`: free of raw markup, every `&` an entity, decoding back to the raw URL, and different from the raw URL whenever that holds a special character such as `&` |
| Patch.PatchedGuidsDistinct | scripts/build-rss.js:24-25 | distinct GIF ids give distinct guids |
| Patch.EnclosureEscaped | scripts/build-rss.js:11 | escaping changes the enclosure exactly when the media URL holds a special character such as `&` |
| BuildRss.Main | scripts/build_rss.js:117-177 | a run sets the stored day to today, and the feed has `min(2000, len)` items whose guids are the ids of the new `seen`, newest first |
| BuildRss.MainKeepsHealthy | scripts/build_rss.js:117-160 | from a duplicate-free state whose count for today is within the limit, a run keeps `seen` duplicate-free, stays within the limit and sets the day; an accepting run leaves at most 100000 ids; feed guids are distinct; the local id file need be duplicate-free only when it supplies the candidates |

## Left out

- File I/O: `readFileSync`, `writeFileSync`, `existsSync`, `mkdirSync`. The state file is an abstract `StoredState` (missing, corrupt or parsed) and data/ids.txt is an optional string. Fields of the wrong JSON type are not modelled.
- The network: `fetch` and `res.json()`. Request `k` receives `pages[k]`, and the model requires one response per request the loop can issue. Inter-request timing is not modelled.
- The clock: `new Date()`, `rfc822`/`toUTCString` and `pubDate`. "Today" is a parameter, and `todayStr` is modelled from a given UTC year, month and day.
- `Ledger.DailyLimit`: `Number(process.env.DAILY_LIMIT)` is taken as an optional integer. The NaN and fractional values that `Number` can produce are not modelled.
- Ledger.LoadState: a stored record is taken to carry an integer `publishedToday`. A record without that field, on the same day, makes `slots` NaN, `slice(0, NaN)` empty, and nothing is published for the rest of that day; that path is not modelled.
- The XML template strings: the channel header, the `<item>` text, CDATA wrapping of titles, and the channel description. Item fields are modelled as records.
- Console logging, `process.exit`, and the `.catch` handlers that end the process.
- `Uri.EncodeComponent` has no decoding round trip. Its character set, the `%XX` triples of each escaped character and identity on unreserved ids are proved.
- The `URIError` that `encodeURIComponent` throws for an id holding a lone surrogate (possible for an id read from the API JSON as a `\ud800` escape) is not modelled: Dafny strings cannot hold a lone surrogate.
- The default parameter `s = ""` of the build-rss.cjs `xmlEscape`: it only matters for an undefined argument, and the script always passes a string.
- A `null` element of `data.data` in build-rss.cjs, which throws a TypeError at `g.id`.
- The patch's removed (`-`) lines, and the surrounding loop the fragment refers to but does not show.
- Concurrent runs: the script takes no lock on docs/state.json, and the model is one run at a time.

=== FILE: build_rss.dfy ===
/** `main` of scripts/build_rss.js as one function: load the state, pick the
    candidates, run the publication step and render the feed items. The clock,
    the file system and the network are parameters. */
module BuildRss {
  import opened Results
  import opened Seqs
  import Ledger
  import Discovery
  import Feed

  /** The environment `main` reads. */
  datatype Config = Config(creds: Discovery.Credentials, dailyLimit: Option<int>, siteUrl: string)

  /** What one run writes: the new docs/state.json, the ids accepted and the
      items of docs/rss.xml. */
  datatype Build = Build(state: Ledger.State, take: seq<string>, items: seq<Feed.FeedItem>)

  function Main(cfg: Config, stored: Ledger.StoredState, today: string,
                pages: seq<Discovery.Page>, localFile: Option<string>): (b: Build)
    requires Discovery.Covers(pages, Discovery.MainMaxToFetch)
    ensures b.state.day == today
    ensures var n := |b.state.seen|;
            && |b.items| == (if n < Ledger.FeedWindow then n else Ledger.FeedWindow)
            && forall i :: 0 <= i < |b.items| ==> b.items[i].guid == b.state.seen[n - 1 - i]
  {
    var state := Ledger.LoadState(stored, today);
    var api := Discovery.NewestIds(cfg.creds, pages, Discovery.MainMaxToFetch);
    var candidates := Discovery.SelectCandidates(api, localFile);
    var o := Ledger.Run(state, today, candidates, Ledger.DailyLimit(cfg.dailyLimit));
    Build(o.state, o.take, Feed.Items(Feed.SiteUrl(cfg.siteUrl), o.feedIds))
  }

  /** The state file keeps the ledger's invariants: no id twice, and the day's
      count within the limit. */
  predicate Healthy(s: Ledger.State, limit: int) {
    Distinct(s.seen) && s.publishedToday <= limit
  }

  /** A stored state holds no id twice, and a count for today within the
      limit; the count of an earlier day is reset by the run. */
  predicate StoredHealthy(stored: Ledger.StoredState, today: string, limit: int) {
    stored.Stored? ==>
      Distinct(stored.seen.Coalesce([])) && (stored.day == today ==> stored.publishedToday <= limit)
  }

  /** A run started from a healthy state file leaves a healthy one, with a
      bounded history whenever it accepted ids and a feed whose guids are all
      different. When the local id file supplies the candidates it must hold
      no id twice, as only the API path de-duplicates. */
  lemma MainKeepsHealthy(cfg: Config, stored: Ledger.StoredState, today: string,
                         pages: seq<Discovery.Page>, localFile: Option<string>)
    requires Discovery.Covers(pages, Discovery.MainMaxToFetch)
    requires StoredHealthy(stored, today, Ledger.DailyLimit(cfg.dailyLimit))
    requires var api := Discovery.NewestIds(cfg.creds, pages, Discovery.MainMaxToFetch);
             !(api.Ok? && api.value != []) ==> Distinct(Discovery.LocalIds(localFile))
    ensures var b := Main(cfg, stored, today, pages, localFile);
            && Healthy(b.state, Ledger.DailyLimit(cfg.dailyLimit))
            && b.state.day == today
            && (b.take != [] ==> |b.state.seen| <= Ledger.HistoryCap)
            && forall i, j :: 0 <= i < j < |b.items| ==> b.items[i].guid != b.items[j].guid
  {
    var limit := Ledger.DailyLimit(cfg.dailyLimit);
    var state := Ledger.LoadState(stored, today);
    var api := Discovery.NewestIds(cfg.creds, pages, Discovery.MainMaxToFetch);
    var candidates := Discovery.SelectCandidates(api, localFile);
    Discovery.CandidatesWellFormed(cfg.creds, pages, localFile);
    Ledger.RunDistinct(state, today, candidates, limit);
    Ledger.RunQuota(state, today, candidates, limit);
    Ledger.RunAppendOnly(state, today, candidates, limit);
    var o := Ledger.Run(state, today, candidates, limit);
    var b := Main(cfg, stored, today, pages, localFile);
    assert b == Build(o.state, o.take, Feed.Items(Feed.SiteUrl(cfg.siteUrl), o.feedIds));
    assert Healthy(b.state, limit);
    Feed.ItemsIdentifyIds(Feed.SiteUrl(cfg.siteUrl), o.feedIds);
  }
}

=== FILE: calendar.dfy ===
/** `todayStr` of scripts/build_rss.js: the UTC date as `YYYY-MM-DD`, the key
    the daily quota is kept under. The clock is not modelled: the UTC year,
    zero-based month and day of the month are parameters. */
module Calendar {

  predicate IsDigit(c: char) {
    '0' <= c <= '9'
  }

  predicate AllDigits(s: string) {
    forall i :: 0 <= i < |s| ==> IsDigit(s[i])
  }

  function DigitChar(d: nat): (c: char)
    requires d < 10
    ensures IsDigit(c) && c as int - '0' as int == d
  {
    ('0' as int + d) as char
  }

  /** The value of a string of decimal digits. */
  function DigitsValue(s: string): nat
    requires AllDigits(s)
  {
    if s == [] then 0 else DigitsValue(s[..|s| - 1]) * 10 + (s[|s| - 1] as int - '0' as int)
  }

  /** `String(n)` for a non-negative integer: its decimal digits, no leading zero. */
  function Decimal(n: nat): (r: string)
    ensures |r| >= 1 && AllDigits(r)
    ensures DigitsValue(r) == n
    ensures |r| > 1 ==> r[0] != '0'
  {
    if n < 10 then [DigitChar(n)]
    else
      var r := Decimal(n / 10) + [DigitChar(n % 10)];
      assert r[..|r| - 1] == Decimal(n / 10);
      r
  }

  /** `String(n)` for any integer. */
  function IntToString(n: int): string {
    if n < 0 then "-" + Decimal(-n) else Decimal(n)
  }

  /** `s.padStart(2, "0")`. */
  function PadStart2(s: string): (r: string)
    ensures |r| == if |s| < 2 then 2 else |s|
    ensures r[|r| - |s|..] == s
    ensures forall i :: 0 <= i < |r| - |s| ==> r[i] == '0'
  {
    if |s| >= 2 then s else if |s| == 1 then "0" + s else "00"
  }

  /** `todayStr()` for the given UTC year, zero-based month and day. */
  function TodayStr(year: int, month0: int, date: int): string {
    IntToString(year) + "-" + PadStart2(IntToString(month0 + 1)) + "-" + PadStart2(IntToString(date))
  }

  lemma LeadingZero(s: string)
    requires AllDigits(s)
    ensures AllDigits("0" + s) && DigitsValue("0" + s) == DigitsValue(s)
  {
    if s != [] {
      var t := "0" + s;
      assert t[..|t| - 1] == "0" + s[..|s| - 1];
      LeadingZero(s[..|s| - 1]);
    }
  }

  lemma {:induction false} DecimalLength(n: nat, k: nat)
    requires 1 <= k
    requires n < Pow10(k)
    requires k == 1 || Pow10(k - 1) <= n
    ensures |Decimal(n)| == k
  {
    if k > 1 {
      DecimalLength(n / 10, k - 1);
    }
  }

  function Pow10(k: nat): nat {
    if k == 0 then 1 else 10 * Pow10(k - 1)
  }

  lemma TwoDigits(n: int)
    requires 1 <= n <= 99
    ensures |PadStart2(IntToString(n))| == 2
    ensures AllDigits(PadStart2(IntToString(n)))
    ensures DigitsValue(PadStart2(IntToString(n))) == n
  {
    var s := Decimal(n);
    if n < 10 {
      DecimalLength(n, 1);
      LeadingZero(s);
    } else {
      DecimalLength(n, 2);
    }
  }

  /** The fields of a `YYYY-MM-DD` string. */
  function ParseDay(s: string): (int, int, int)
    requires |s| == 10 && AllDigits(s[..4]) && AllDigits(s[5..7]) && AllDigits(s[8..])
  {
    (DigitsValue(s[..4]), DigitsValue(s[5..7]), DigitsValue(s[8..]))
  }

  /** For a four-digit year, `todayStr` yields ten characters with `-` at
      positions 4 and 7, and the year, one-based month and day can be read back
      from it; so two different dates never share a day key. */
  lemma TodayStrRoundTrip(year: int, month0: int, date: int)
    requires 1000 <= year <= 9999 && 0 <= month0 <= 11 && 1 <= date <= 31
    ensures |TodayStr(year, month0, date)| == 10
    ensures TodayStr(year, month0, date)[4] == '-' && TodayStr(year, month0, date)[7] == '-'
    ensures AllDigits(TodayStr(year, month0, date)[..4])
    ensures AllDigits(TodayStr(year, month0, date)[5..7])
    ensures AllDigits(TodayStr(year, month0, date)[8..])
    ensures ParseDay(TodayStr(year, month0, date)) == (year, month0 + 1, date)
  {
    var y := IntToString(year);
    var m := PadStart2(IntToString(month0 + 1));
    var d := PadStart2(IntToString(date));
    DecimalLength(year, 4);
    TwoDigits(month0 + 1);
    TwoDigits(date);
    var s := TodayStr(year, month0, date);
    assert s == y + "-" + m + "-" + d;
    assert s[..4] == y && s[5..7] == m && s[8..] == d;
  }

  lemma TodayStrInjective(y1: int, m1: int, d1: int, y2: int, m2: int, d2: int)
    requires 1000 <= y1 <= 9999 && 0 <= m1 <= 11 && 1 <= d1 <= 31
    requires 1000 <= y2 <= 9999 && 0 <= m2 <= 11 && 1 <= d2 <= 31
    ensures TodayStr(y1, m1, d1) == TodayStr(y2, m2, d2) <==> y1 == y2 && m1 == m2 && d1 == d2
  {
    TodayStrRoundTrip(y1, m1, d1);
    TodayStrRoundTrip(y2, m2, d2);
  }
}

=== FILE: discovery.dfy ===
/** Candidate discovery in scripts/build_rss.js: `fetchNewestIdsFromGiphy`
    walks the search API 50 records at a time and de-duplicates what it
    found; `loadLocalIds` reads data/ids.txt; `main` prefers the API ids and
    falls back to the local list. The network is a given sequence of page
    responses: request `k` (offset `50 * k`) receives `pages[k]`. */
module Discovery {
  import opened Results
  import opened Seqs
  import opened Strings

  /** `pageSize`. */
  const PageSize: nat := 50
  /** The `maxToFetch` argument `main` passes. */
  const MainMaxToFetch: int := 500

  /** One element of `json.data`: `null` or another falsy value, or a record
      whose `id` is "" when it is missing or empty. */
  datatype ApiRecord = NullRecord | Record(id: string)

  /** The response to one page request: a non-ok HTTP status, a rejected
      `fetch` or `res.json()` (network failure, body that is not JSON), or a
      parsed body whose `data` is `None` when the body is falsy or `data` is
      not an array. */
  datatype Page = NotOk | Rejected | Json(data: Option<seq<ApiRecord>>)

  /** What the pagination loop did: the ids it pushed, how many requests it
      issued, and whether a rejection escaped it. */
  datatype Crawl = Crawl(ids: seq<string>, requests: nat, rejected: bool)

  /** A rejection of `fetchNewestIdsFromGiphy`, caught by `main`. */
  datatype Rejection = Rejection

  /** `GIPHY_USERNAME` and `GIPHY_API_KEY` as read from the environment
      ("" when unset). */
  datatype Credentials = Credentials(username: string, apiKey: string)

  predicate HasCredentials(c: Credentials) {
    Trim(c.username) != "" && Trim(c.apiKey) != ""
  }

  /** The number of offsets `0, 50, 100, ...` below `maxToFetch`. */
  function MaxRequests(maxToFetch: int): nat {
    if maxToFetch <= 0 then 0 else (maxToFetch + PageSize - 1) / PageSize
  }

  /** Offset `50 * k` is requested by the loop exactly when `k` is below
      `MaxRequests(maxToFetch)`, that is `ceil(maxToFetch / 50)`. */
  lemma OffsetBelowMax(k: nat, maxToFetch: int)
    ensures k * PageSize < maxToFetch <==> k < MaxRequests(maxToFetch)
  {
  }

  /** The responses given cover every offset the loop may request. */
  predicate Covers(pages: seq<Page>, maxToFetch: int) {
    maxToFetch <= |pages| * PageSize
  }

  /** The ids one page contributes: `if (it && it.id) ids.push(it.id)`. */
  function PageIds(items: seq<ApiRecord>): (ids: seq<string>)
    ensures |ids| <= |items|
    ensures forall i :: 0 <= i < |ids| ==> ids[i] != ""
  {
    if items == [] then []
    else
      (if items[0].Record? && items[0].id != "" then [items[0].id] else [])
      + PageIds(items[1..])
  }

  /** A page contributes the truthy id of every truthy record, and nothing
      else. */
  lemma {:induction false} PageIdsMembers(items: seq<ApiRecord>)
    ensures var ids := PageIds(items);
            && (forall i :: 0 <= i < |ids| ==> ids[i] != "" && Record(ids[i]) in items)
            && (forall i :: 0 <= i < |items| && items[i].Record? && items[i].id != "" ==> items[i].id in ids)
  {
    if items != [] {
      PageIdsMembers(items[1..]);
      var ids := PageIds(items);
      var head := if items[0].Record? && items[0].id != "" then [items[0].id] else [];
      assert ids == head + PageIds(items[1..]);
      forall i | 0 <= i < |items| && items[i].Record? && items[i].id != "" ensures items[i].id in ids {
        if i > 0 {
          assert items[i] == items[1..][i - 1];
        }
      }
    }
  }

  /** The ids keep the order of the records: a page split in two contributes
      the ids of the first part, then those of the second. */
  lemma {:induction false} PageIdsConcat(a: seq<ApiRecord>, b: seq<ApiRecord>)
    ensures PageIds(a + b) == PageIds(a) + PageIds(b)
  {
    if a == [] {
      assert a + b == b;
    } else {
      assert (a + b)[0] == a[0] && (a + b)[1..] == a[1..] + b;
      PageIdsConcat(a[1..], b);
    }
  }

  predicate IsFullPage(p: Page) {
    p.Json? && p.data.Some? && |p.data.value| >= PageSize
  }

  /** A response after which the loop issues no further request. */
  predicate IsLastPage(p: Page) {
    !IsFullPage(p)
  }

  function IdsOf(p: Page): seq<string> {
    if p.Json? && p.data.Some? then PageIds(p.data.value) else []
  }

  /** The loop body from request `k` on: stop on a non-ok status, missing or
      empty `data`, a short page, or when the offset reaches `maxToFetch`. */
  function Paginate(pages: seq<Page>, k: nat, maxToFetch: int): (c: Crawl)
    requires Covers(pages, maxToFetch)
    ensures c.requests == 0 <==> k * PageSize >= maxToFetch
    ensures c.requests > 0 ==> k + c.requests <= |pages|
    ensures c.rejected ==> c.requests > 0
    decreases |pages| - k
  {
    if k * PageSize >= maxToFetch then Crawl([], 0, false)
    else
      match pages[k]
      case NotOk => Crawl([], 1, false)
      case Rejected => Crawl([], 1, true)
      case Json(data) =>
        if data.None? || |data.value| == 0 then Crawl([], 1, false)
        else
          var got := PageIds(data.value);
          if |data.value| < PageSize then Crawl(got, 1, false)
          else
            var rest := Paginate(pages, k + 1, maxToFetch);
            Crawl(got + rest.ids, 1 + rest.requests, rest.rejected)
  }

  /** The truthy ids of responses `lo` to `hi - 1`, in order. */
  function Harvest(pages: seq<Page>, lo: nat, hi: nat): seq<string>
    requires lo <= hi <= |pages|
    decreases hi - lo
  {
    if lo == hi then [] else IdsOf(pages[lo]) + Harvest(pages, lo + 1, hi)
  }

  /** `fetchNewestIdsFromGiphy(maxToFetch)`: no credentials, no ids and no
      request; a rejection escapes; otherwise the pushed ids de-duplicated. */
  function NewestIds(creds: Credentials, pages: seq<Page>, maxToFetch: int): (r: Result<seq<string>, Rejection>)
    requires Covers(pages, maxToFetch)
    ensures !HasCredentials(creds) ==> r == Ok([])
    ensures r.Err? ==> RequestsMade(creds, pages, maxToFetch) > 0
    ensures r.Ok? ==> Distinct(r.value) && forall i :: 0 <= i < |r.value| ==> r.value[i] != ""
  {
    if !HasCredentials(creds) then Ok([])
    else
      var c := Paginate(pages, 0, maxToFetch);
      PaginateNonEmpty(pages, 0, maxToFetch);
      if c.rejected then Err(Rejection) else Ok(Dedup(c.ids))
  }

  /** With credentials, `fetchNewestIdsFromGiphy` rejects exactly when the
      last response the loop received was a rejection, and otherwise returns
      the truthy ids of the requested pages, de-duplicated in first-seen order. */
  lemma NewestIdsExact(creds: Credentials, pages: seq<Page>, maxToFetch: int)
    requires Covers(pages, maxToFetch)
    requires HasCredentials(creds)
    ensures var r := NewestIds(creds, pages, maxToFetch);
            var c := Paginate(pages, 0, maxToFetch);
            && c.requests <= |pages|
            && (r.Err? <==> c.requests > 0 && pages[c.requests - 1].Rejected?)
            && (r.Ok? ==> r.value == Dedup(Harvest(pages, 0, c.requests)))
  {
    PaginateStops(pages, 0, maxToFetch);
    PaginateHarvest(pages, 0, maxToFetch);
  }

  function RequestsMade(creds: Credentials, pages: seq<Page>, maxToFetch: int): nat
    requires Covers(pages, maxToFetch)
  {
    if !HasCredentials(creds) then 0 else Paginate(pages, 0, maxToFetch).requests
  }

  /** One turn of the loop: a full page is followed by the next request,
      any other response ends the loop with what that page contributed. */
  lemma PaginateStep(pages: seq<Page>, k: nat, maxToFetch: int)
    requires Covers(pages, maxToFetch)
    requires k * PageSize < maxToFetch
    ensures k < |pages|
    ensures var c := Paginate(pages, k, maxToFetch);
            var p := pages[k];
            && (!IsFullPage(p) ==> c == Crawl(IdsOf(p), 1, p.Rejected?))
            && (IsFullPage(p) ==>
                  var rest := Paginate(pages, k + 1, maxToFetch);
                  c == Crawl(IdsOf(p) + rest.ids, 1 + rest.requests, rest.rejected))
  {
    OffsetBelowMax(k, maxToFetch);
  }

  /** At most one request per offset below `maxToFetch`, and none at all
      once the offsets are used up. */
  lemma {:induction false} PaginateBound(pages: seq<Page>, k: nat, maxToFetch: int)
    requires Covers(pages, maxToFetch)
    requires k <= MaxRequests(maxToFetch)
    ensures k + Paginate(pages, k, maxToFetch).requests <= MaxRequests(maxToFetch)
    ensures Paginate(pages, k, maxToFetch).requests == 0 <==> k == MaxRequests(maxToFetch)
    decreases |pages| - k
  {
    OffsetBelowMax(k, maxToFetch);
    if k * PageSize < maxToFetch && IsFullPage(pages[k]) {
      PaginateBound(pages, k + 1, maxToFetch);
    }
  }

  /** The loop moves on only past full pages; when it stops before the last
      offset, the response it stopped on ends the loop; and a rejection can
      only come from the last response. */
  lemma {:induction false} PaginateStops(pages: seq<Page>, k: nat, maxToFetch: int)
    requires Covers(pages, maxToFetch)
    ensures var c := Paginate(pages, k, maxToFetch);
            && (forall j :: k <= j < k + c.requests - 1 ==> IsFullPage(pages[j]))
            && (c.requests > 0 ==> (c.rejected <==> pages[k + c.requests - 1].Rejected?))
            && (c.requests > 0 && (k + c.requests) * PageSize < maxToFetch ==> IsLastPage(pages[k + c.requests - 1]))
    decreases |pages| - k
  {
    if k * PageSize < maxToFetch && IsFullPage(pages[k]) {
      PaginateStops(pages, k + 1, maxToFetch);
    }
  }

  /** Harvesting a non-empty range starts with the first page's ids. */
  lemma HarvestCons(pages: seq<Page>, lo: nat, hi: nat)
    requires lo < hi <= |pages|
    ensures Harvest(pages, lo, hi) == IdsOf(pages[lo]) + Harvest(pages, lo + 1, hi)
  {
  }

  /** Without a rejection, the loop collects exactly the truthy ids of the
      pages it requested, in order. */
  lemma {:induction false} PaginateHarvest(pages: seq<Page>, k: nat, maxToFetch: int)
    requires Covers(pages, maxToFetch)
    requires k <= |pages|
    ensures var c := Paginate(pages, k, maxToFetch);
            !c.rejected ==> k + c.requests <= |pages| && c.ids == Harvest(pages, k, k + c.requests)
    decreases |pages| - k
  {
    if k * PageSize >= maxToFetch {
      assert Paginate(pages, k, maxToFetch) == Crawl([], 0, false);
      assert Harvest(pages, k, k) == [];
    } else {
      assert Paginate(pages, k, maxToFetch).requests > 0;
      if IsFullPage(pages[k]) {
        PaginateHarvest(pages, k + 1, maxToFetch);
      }
      HarvestStep(pages, k, maxToFetch);
    }
  }

  /** One step of `PaginateHarvest`: the claim for request `k` follows from
      the claim for request `k + 1`. */
  lemma HarvestStep(pages: seq<Page>, k: nat, maxToFetch: int)
    requires Covers(pages, maxToFetch)
    requires k * PageSize < maxToFetch
    requires var rest := Paginate(pages, k + 1, maxToFetch);
             k < |pages| && IsFullPage(pages[k]) && !rest.rejected ==>
               k + 1 + rest.requests <= |pages| && rest.ids == Harvest(pages, k + 1, k + 1 + rest.requests)
    ensures var c := Paginate(pages, k, maxToFetch);
            !c.rejected ==> k + c.requests <= |pages| && c.ids == Harvest(pages, k, k + c.requests)
  {
    PaginateStep(pages, k, maxToFetch);
    var c := Paginate(pages, k, maxToFetch);
    var p := pages[k];
    if !c.rejected {
      if IsFullPage(p) {
        var rest := Paginate(pages, k + 1, maxToFetch);
        var hi := k + c.requests;
        assert hi == k + 1 + rest.requests;
        calc {
          c.ids;
          IdsOf(p) + rest.ids;
          IdsOf(pages[k]) + Harvest(pages, k + 1, hi);
          { HarvestCons(pages, k, hi); }
          Harvest(pages, k, hi);
        }
      } else {
        assert c.ids == IdsOf(p) && c.requests == 1;
        HarvestCons(pages, k, k + 1);
      }
    }
  }

  /** The `for` loop of `fetchNewestIdsFromGiphy`: offsets `0, 50, ...` below
      `maxToFetch`, one request each, until a response ends it. */
  method FetchPages(pages: seq<Page>, maxToFetch: int)
    returns (ids: seq<string>, requests: nat, rejected: bool)
    requires Covers(pages, maxToFetch)
    ensures Crawl(ids, requests, rejected) == Paginate(pages, 0, maxToFetch)
    ensures forall i :: 0 <= i < |ids| ==> ids[i] != ""
  {
    PaginateNonEmpty(pages, 0, maxToFetch);
    ghost var total := Paginate(pages, 0, maxToFetch);
    ids := [];
    var offset: int := 0;
    var k: nat := 0;
    requests := 0;
    rejected := false;
    while offset < maxToFetch
      invariant offset == k * PageSize
      invariant requests == k && !rejected
      invariant total.ids == ids + Paginate(pages, k, maxToFetch).ids
      invariant total.requests == k + Paginate(pages, k, maxToFetch).requests
      invariant total.rejected == Paginate(pages, k, maxToFetch).rejected
      decreases maxToFetch - offset
    {
      PaginateStep(pages, k, maxToFetch);
      ghost var here := Paginate(pages, k, maxToFetch);
      var page := pages[k];
      requests := requests + 1;
      if page.NotOk? {
        assert here == Crawl([], 1, false);
        break;
      }
      if page.Rejected? {
        assert here.rejected && here.requests == 1;
        rejected := true;
        break;
      }
      if page.data.None? || |page.data.value| == 0 {
        assert here == Crawl([], 1, false);
        break;
      }
      var items := page.data.value;
      var got := PageIds(items);
      if |items| < PageSize {
        assert here == Crawl(got, 1, false);
        ids := ids + got;
        break;
      }
      ghost var next := Paginate(pages, k + 1, maxToFetch);
      assert here == Crawl(got + next.ids, 1 + next.requests, next.rejected);
      assert (ids + got) + next.ids == ids + (got + next.ids);
      ids := ids + got;
      offset := offset + PageSize;
      k := k + 1;
    }
  }

  /** `fetchNewestIdsFromGiphy(maxToFetch)`: nothing without credentials;
      otherwise the paginated ids, distinct and truthy, in first-seen order,
      unless a rejection escapes the loop. */
  method FetchNewestIdsFromGiphy(creds: Credentials, pages: seq<Page>, maxToFetch: int)
    returns (r: Result<seq<string>, Rejection>, requests: nat)
    requires Covers(pages, maxToFetch)
    ensures r == NewestIds(creds, pages, maxToFetch)
    ensures requests == RequestsMade(creds, pages, maxToFetch) <= MaxRequests(maxToFetch)
    ensures !HasCredentials(creds) ==> r == Ok([]) && requests == 0
    ensures r.Ok? ==> Distinct(r.value) && forall i :: 0 <= i < |r.value| ==> r.value[i] != ""
  {
    if !HasCredentials(creds) {
      return Ok([]), 0;
    }
    PaginateBound(pages, 0, maxToFetch);
    var ids, rejected;
    ids, requests, rejected := FetchPages(pages, maxToFetch);
    if rejected {
      return Err(Rejection), requests;
    }
    // Array.from(new Set(ids))
    r := Ok(Dedup(ids));
  }

  /** A line of `raw.split(/\r?\n/)` that was followed by `\n` loses the `\r`
      just before it. */
  function DropCarriageReturn(line: string): (r: string)
    ensures |r| <= |line| && r == line[..|r|]
    ensures |line| - 1 <= |r|
    ensures |r| < |line| <==> line != [] && line[|line| - 1] == '\r'
  {
    if |line| > 0 && line[|line| - 1] == '\r' then line[..|line| - 1] else line
  }

  function DropCarriageReturns(pieces: seq<string>): (r: seq<string>)
    ensures |r| == |pieces|
    ensures forall i :: 0 <= i < |r| ==> r[i] == DropCarriageReturn(pieces[i])
  {
    if pieces == [] then [] else [DropCarriageReturn(pieces[0])] + DropCarriageReturns(pieces[1..])
  }

  /** `raw.split(/\r?\n/)`: split at every `\n`, dropping a `\r` right before it. */
  function SplitLines(raw: string): (lines: seq<string>)
    ensures |lines| == |SplitOn(raw, '\n')|
    ensures forall i :: 0 <= i < |lines| - 1 ==> lines[i] == DropCarriageReturn(SplitOn(raw, '\n')[i])
    ensures lines[|lines| - 1] == SplitOn(raw, '\n')[|lines| - 1]
    ensures forall i :: 0 <= i < |lines| ==> '\n' !in lines[i]
  {
    var pieces := SplitOn(raw, '\n');
    var r := DropCarriageReturns(pieces[..|pieces| - 1]) + [pieces[|pieces| - 1]];
    assert forall i :: 0 <= i < |r| - 1 ==> r[i] == DropCarriageReturn(pieces[i]);
    r
  }

  /** `.map(s => s.trim())`. */
  function TrimLines(lines: seq<string>): (ts: seq<string>)
    ensures |ts| == |lines|
    ensures forall i :: 0 <= i < |ts| ==> ts[i] == Trim(lines[i])
  {
    if lines == [] then [] else [Trim(lines[0])] + TrimLines(lines[1..])
  }

  /** `.filter(Boolean)` on strings: the non-empty ones, and all of them. */
  function NonBlank(ts: seq<string>): (ids: seq<string>)
    ensures |ids| <= |ts|
    ensures forall i :: 0 <= i < |ids| ==> ids[i] != "" && ids[i] in ts
    ensures forall i :: 0 <= i < |ts| && ts[i] != "" ==> ts[i] in ids
  {
    if ts == [] then []
    else (if ts[0] == "" then [] else [ts[0]]) + NonBlank(ts[1..])
  }

  /** The filter keeps the order: filtering a concatenation is concatenating
      the filtered parts. */
  lemma {:induction false} NonBlankConcat(a: seq<string>, b: seq<string>)
    ensures NonBlank(a + b) == NonBlank(a) + NonBlank(b)
  {
    if a == [] {
      assert a + b == b;
    } else {
      assert (a + b)[0] == a[0] && (a + b)[1..] == a[1..] + b;
      NonBlankConcat(a[1..], b);
    }
  }

  /** `.map(s => s.trim()).filter(Boolean)`, one line at a time: every id is
      non-empty with no whitespace at either end. */
  function CleanLines(lines: seq<string>): (ids: seq<string>)
    ensures |ids| <= |lines|
    ensures forall i :: 0 <= i < |ids| ==> ids[i] != "" && IsTrimmed(ids[i])
  {
    if lines == [] then []
    else
      var t := Trim(lines[0]);
      var rest := CleanLines(lines[1..]);
      if t == "" then rest else [t] + rest
  }

  /** The line-at-a-time cleaning is the map followed by the filter. */
  lemma {:induction false} CleanLinesIsMapFilter(lines: seq<string>)
    ensures CleanLines(lines) == NonBlank(TrimLines(lines))
  {
    if lines != [] {
      var t := Trim(lines[0]);
      CleanLinesIsMapFilter(lines[1..]);
      assert TrimLines(lines) == [t] + TrimLines(lines[1..]);
      NonBlankConcat([t], TrimLines(lines[1..]));
      assert NonBlank([t]) == if t == "" then [] else [t];
    }
  }

  /** No id is made up: each is the trimmed text of some line. */
  lemma CleanLinesFromLines(lines: seq<string>)
    ensures forall i :: 0 <= i < |CleanLines(lines)| ==> CleanLines(lines)[i] in TrimLines(lines)
  {
    CleanLinesIsMapFilter(lines);
  }

  /** No non-blank line is lost: its trimmed text is among the ids. */
  lemma CleanLinesKeep(lines: seq<string>)
    ensures forall i :: 0 <= i < |lines| && Trim(lines[i]) != "" ==> Trim(lines[i]) in CleanLines(lines)
  {
    CleanLinesIsMapFilter(lines);
    var ts := TrimLines(lines);
    forall i | 0 <= i < |lines| && Trim(lines[i]) != "" ensures Trim(lines[i]) in CleanLines(lines) {
      assert ts[i] == Trim(lines[i]);
    }
  }

  /** Cleaning keeps the order of the lines: cleaning a concatenation is
      concatenating the cleaned parts. */
  lemma CleanLinesConcat(a: seq<string>, b: seq<string>)
    ensures CleanLines(a + b) == CleanLines(a) + CleanLines(b)
  {
    CleanLinesIsMapFilter(a);
    CleanLinesIsMapFilter(b);
    CleanLinesIsMapFilter(a + b);
    TrimLinesConcat(a, b);
    NonBlankConcat(TrimLines(a), TrimLines(b));
  }

  lemma {:induction false} TrimLinesConcat(a: seq<string>, b: seq<string>)
    ensures TrimLines(a + b) == TrimLines(a) + TrimLines(b)
  {
    if a == [] {
      assert a + b == b;
    } else {
      assert (a + b)[0] == a[0] && (a + b)[1..] == a[1..] + b;
      TrimLinesConcat(a[1..], b);
    }
  }


  /** `loadLocalIds()`: no file gives no ids; otherwise one id per line that
      is not blank, with its surrounding whitespace removed. */
  function LocalIds(file: Option<string>): (ids: seq<string>)
    ensures file.None? ==> ids == []
    ensures forall i :: 0 <= i < |ids| ==> ids[i] != "" && IsTrimmed(ids[i])
    ensures file.Some? ==> forall i :: 0 <= i < |ids| ==> ids[i] in TrimLines(SplitLines(file.value))
  {
    match file
    case None => []
    case Some(raw) =>
      CleanLinesFromLines(SplitLines(raw));
      CleanLines(SplitLines(raw))
  }

  lemma TrimKeepsOut(s: string, c: char)
    requires c !in s
    ensures c !in Trim(s)
  {
    var t := TrimStart(s);
    var r := TrimEnd(t);
    assert Trim(s) == r;
    assert t == s[|s| - |t|..] && r == t[..|r|];
    forall k | 0 <= k < |r| ensures r[k] != c {
      assert r[k] == s[|s| - |t| + k];
    }
  }

  /** Every local id is a non-blank line of the file, trimmed, so none holds a
      line break; and every non-blank line of the file yields an id. */
  lemma {:induction false} LocalIdsAreLines(raw: string)
    ensures forall i :: 0 <= i < |LocalIds(Some(raw))| ==>
              exists j :: 0 <= j < |SplitLines(raw)| && LocalIds(Some(raw))[i] == Trim(SplitLines(raw)[j])
    ensures forall i :: 0 <= i < |LocalIds(Some(raw))| ==> '\n' !in LocalIds(Some(raw))[i]
    ensures forall j :: 0 <= j < |SplitLines(raw)| && Trim(SplitLines(raw)[j]) != "" ==>
              Trim(SplitLines(raw)[j]) in LocalIds(Some(raw))
  {
    var lines := SplitLines(raw);
    var ts := TrimLines(lines);
    var ids := LocalIds(Some(raw));
    forall i | 0 <= i < |ids| ensures exists j :: 0 <= j < |lines| && ids[i] == Trim(lines[j]) {
      var j :| 0 <= j < |ts| && ts[j] == ids[i];
      assert ids[i] == Trim(lines[j]);
    }
    CleanNoBreak(lines);
    CleanLinesKeep(lines);
  }

  lemma CleanNoBreak(lines: seq<string>)
    requires forall i :: 0 <= i < |lines| ==> '\n' !in lines[i]
    ensures forall i :: 0 <= i < |CleanLines(lines)| ==> '\n' !in CleanLines(lines)[i]
  {
    CleanLinesIsMapFilter(lines);
    var ts := TrimLines(lines);
    forall j | 0 <= j < |ts| ensures '\n' !in ts[j] {
      TrimKeepsOut(lines[j], '\n');
    }
    var ids := CleanLines(lines);
    forall i | 0 <= i < |ids| ensures '\n' !in ids[i] {
      var j :| 0 <= j < |ts| && ts[j] == ids[i];
    }
  }

  /** Step 1 of `main`: the API ids when there are any, the local list when
      the API gave none or rejected. */
  function SelectCandidates(api: Result<seq<string>, Rejection>, localFile: Option<string>): (c: seq<string>)
    ensures api.Ok? && api.value != [] ==> c == api.value
    ensures api.Err? || api.value == [] ==> c == LocalIds(localFile)
  {
    if api.Ok? && |api.value| > 0 then api.value else LocalIds(localFile)
  }

  /** Every candidate is a non-empty id, and the candidates are distinct
      whenever the API supplied them. */
  lemma CandidatesWellFormed(creds: Credentials, pages: seq<Page>, localFile: Option<string>)
    requires Covers(pages, MainMaxToFetch)
    ensures var api := NewestIds(creds, pages, MainMaxToFetch);
            var c := SelectCandidates(api, localFile);
            && (forall i :: 0 <= i < |c| ==> c[i] != "")
            && (api.Ok? && api.value != [] ==> Distinct(c))
  {
    var api := NewestIds(creds, pages, MainMaxToFetch);
    if HasCredentials(creds) {
      var crawl := Paginate(pages, 0, MainMaxToFetch);
      PaginateNonEmpty(pages, 0, MainMaxToFetch);
      if !crawl.rejected {
        var d := Dedup(crawl.ids);
        assert api == Ok(d);
        forall i | 0 <= i < |d| ensures d[i] != "" {
          assert d[i] in crawl.ids;
        }
      }
    }
  }

  lemma {:induction false} PaginateNonEmpty(pages: seq<Page>, k: nat, maxToFetch: int)
    requires Covers(pages, maxToFetch)
    ensures forall i :: 0 <= i < |Paginate(pages, k, maxToFetch).ids| ==> Paginate(pages, k, maxToFetch).ids[i] != ""
    decreases |pages| - k
  {
    if k * PageSize < maxToFetch {
      PaginateStep(pages, k, maxToFetch);
      if pages[k].Json? && pages[k].data.Some? {
        PageIdsMembers(pages[k].data.value);
      }
      if IsFullPage(pages[k]) {
        PaginateNonEmpty(pages, k + 1, maxToFetch);
      }
    }
  }
}

=== FILE: feed.dfy ===
/** The per-id feed fields of scripts/build_rss.js: `mediaUrl(id)`,
    `siteLink(id)` and the `<item>` of step 4, all pure functions of the id. */
module Feed {
  import opened Seqs
  import opened Uri

  /** The `SITE_URL` used when the variable is unset or empty. */
  const DefaultSiteUrl := "https://xrp-drop.com"
  const MediaPrefix := "https://media.giphy.com/media/"
  const MediaSuffix := "/giphy.gif"
  const LinkPath := "/gifs?g="
  const ItemTitle := "Drop Xrp GIF by $DROP"
  const DescriptionPrefix := "DROP official GIF • ID "

  /** `process.env.SITE_URL || "https://xrp-drop.com"`, with "" for unset. */
  function SiteUrl(env: string): (url: string)
    ensures url != ""
    ensures env == "" ==> url == DefaultSiteUrl
    ensures env != "" ==> url == env
  {
    if env == "" then DefaultSiteUrl else env
  }

  /** `s.replace(/\/+$/, "")`: all trailing slashes removed, nothing else. */
  function StripTrailingSlashes(s: string): (r: string)
    ensures |r| <= |s| && r == s[..|r|]
    ensures forall k :: |r| <= k < |s| ==> s[k] == '/'
    ensures r == [] || r[|r| - 1] != '/'
  {
    if s != [] && s[|s| - 1] == '/' then StripTrailingSlashes(s[..|s| - 1]) else s
  }

  /** `mediaUrl(id)`: the id between the Giphy media prefix and suffix. */
  function MediaUrl(id: string): (url: string)
    ensures |url| == |MediaPrefix| + |id| + |MediaSuffix|
    ensures url[..|MediaPrefix|] == MediaPrefix && url[|url| - |MediaSuffix|..] == MediaSuffix
    ensures url[|MediaPrefix|..|url| - |MediaSuffix|] == id
  {
    MediaPrefix + id + MediaSuffix
  }

  /** `siteLink(id)` for the configured site URL: the site without trailing
      slashes, then `/gifs?g=`, then a query value that holds only unreserved
      characters and `%`, so no `&` or `#` of the id can end it early. */
  function SiteLink(siteUrl: string, id: string): (link: string)
    ensures var base := StripTrailingSlashes(siteUrl) + LinkPath;
            && |base| + |id| <= |link| && link[..|base|] == base
            && forall i :: |base| <= i < |link| ==> link[i] == '%' || IsUnescaped(link[i])
  {
    StripTrailingSlashes(siteUrl) + LinkPath + EncodeComponent(id)
  }

  /** The id can be read back from its media URL, so distinct ids never share
      an enclosure. */
  lemma MediaUrlInjective(a: string, b: string)
    requires MediaUrl(a) == MediaUrl(b)
    ensures a == b
  {
    var u := MediaUrl(a);
    assert a == u[|MediaPrefix|..|u| - |MediaSuffix|];
    assert b == MediaUrl(b)[|MediaPrefix|..|u| - |MediaSuffix|];
  }

  /** A site URL with any number of trailing slashes gives the same link as
      the URL without them, so the path never starts with `//`; an id of
      unescaped characters appears verbatim and can be read back. */
  lemma SiteLinkShape(siteUrl: string, id: string)
    ensures SiteLink(siteUrl, id) == SiteLink(StripTrailingSlashes(siteUrl), id)
    ensures AllUnescaped(id) ==> SiteLink(siteUrl, id) == StripTrailingSlashes(siteUrl) + LinkPath + id
  {
    var base := StripTrailingSlashes(siteUrl);
    assert StripTrailingSlashes(base) == base;
    if AllUnescaped(id) {
      EncodeUnescaped(id);
    }
  }

  lemma SiteLinkInjective(siteUrl: string, a: string, b: string)
    requires AllUnescaped(a) && AllUnescaped(b)
    requires SiteLink(siteUrl, a) == SiteLink(siteUrl, b)
    ensures a == b
  {
    SiteLinkShape(siteUrl, a);
    SiteLinkShape(siteUrl, b);
    var p := StripTrailingSlashes(siteUrl) + LinkPath;
    assert a == SiteLink(siteUrl, a)[|p|..];
  }

  /** One `<item>` of the feed; `pubDate` is the build time and is not
      modelled. */
  datatype FeedItem = FeedItem(title: string, link: string, description: string,
                               enclosureUrl: string, guid: string)

  function Item(siteUrl: string, id: string): FeedItem {
    FeedItem(ItemTitle, SiteLink(siteUrl, id), DescriptionPrefix + id, MediaUrl(id), id)
  }

  /** The `for (const id of feedIds)` loop: one item per id, in feed order. */
  function Items(siteUrl: string, ids: seq<string>): (items: seq<FeedItem>)
    ensures |items| == |ids|
    ensures forall i :: 0 <= i < |ids| ==> items[i] == Item(siteUrl, ids[i])
  {
    if ids == [] then [] else [Item(siteUrl, ids[0])] + Items(siteUrl, ids[1..])
  }

  /** The guids of the feed are its ids, so distinct ids give distinct guids
      and distinct enclosures. */
  lemma ItemsIdentifyIds(siteUrl: string, ids: seq<string>)
    requires Distinct(ids)
    ensures var items := Items(siteUrl, ids);
            forall i, j :: 0 <= i < j < |items| ==>
              items[i].guid != items[j].guid && items[i].enclosureUrl != items[j].enclosureUrl
  {
    var items := Items(siteUrl, ids);
    forall i, j | 0 <= i < j < |items|
      ensures items[i].guid != items[j].guid && items[i].enclosureUrl != items[j].enclosureUrl
    {
      assert items[i].enclosureUrl == MediaUrl(ids[i]) && items[j].enclosureUrl == MediaUrl(ids[j]);
    }
  }
}

=== FILE: ledger.dfy ===
/** The publication-state engine of scripts/build_rss.js (`main`, steps 1 to 4):
    one read-modify-write step over `{day, publishedToday, seen}` that rolls the
    day over, keeps the candidates not yet seen, takes as many as the daily
    quota leaves, appends them to `seen`, trims `seen` first-in-first-out and
    derives the newest-first feed window. */
module Ledger {
  import opened Results
  import opened Seqs

  /** `state.seen` is trimmed once it holds more than this many ids ... */
  const HistoryCap: nat := 100000
  /** ... down to its newest this many. */
  const TrimKeep: nat := 80000
  /** `MAX_FEED_ITEMS`: the feed shows at most this many of the newest ids. */
  const FeedWindow: nat := 2000
  /** The `DAILY_LIMIT` used when the variable is unset or empty. */
  const DefaultDailyLimit: int := 100

  /** The contents of docs/state.json. */
  datatype State = State(day: string, publishedToday: int, seen: seq<string>)

  /** What reading docs/state.json gives: no file, text that is not JSON, or a
      record whose `seen` field may be missing. */
  datatype StoredState =
    | Missing
    | Corrupt
    | Stored(day: string, publishedToday: int, seen: Option<seq<string>>)

  /** The result of one run: the state to save, the ids accepted this run and
      the ids of the feed, newest first. */
  datatype Outcome = Outcome(state: State, take: seq<string>, feedIds: seq<string>)

  /** `Math.max(1, Number(process.env.DAILY_LIMIT || "100"))` for a variable
      holding an integer, `None` when it is unset or empty. */
  function DailyLimit(configured: Option<int>): (limit: int)
    ensures limit >= 1
    ensures configured.None? ==> limit == DefaultDailyLimit
    ensures configured.Some? && configured.value >= 1 ==> limit == configured.value
    ensures configured.Some? && configured.value < 1 ==> limit == 1
  {
    var n := configured.Coalesce(DefaultDailyLimit);
    if n < 1 then 1 else n
  }

  /** `loadState()` followed by `state.seen ||= []`: a missing or unreadable
      file gives a fresh state for today; a stored one is taken as it is. */
  function LoadState(stored: StoredState, today: string): (s: State)
    ensures !stored.Stored? ==> s == State(today, 0, [])
    ensures stored.Stored? ==> s.day == stored.day && s.publishedToday == stored.publishedToday
    ensures stored.Stored? && stored.seen.Some? ==> s.seen == stored.seen.value
    ensures stored.Stored? && stored.seen.None? ==> s.seen == []
  {
    match stored
    case Stored(day, published, seen) => State(day, published, seen.Coalesce([]))
    case _ => State(today, 0, [])
  }

  /** A new UTC day starts with a fresh quota; `seen` is never touched. */
  function Rollover(s: State, today: string): (r: State)
    ensures r.day == today && r.seen == s.seen
    ensures s.day != today ==> r.publishedToday == 0
    ensures s.day == today ==> r == s
  {
    if s.day != today then s.(day := today, publishedToday := 0) else s
  }

  /** `candidates.filter(id => !seen.includes(id))`. */
  function FreshIds(candidates: seq<string>, seen: seq<string>): (r: seq<string>)
    ensures |r| <= |candidates|
    ensures forall i :: 0 <= i < |r| ==> r[i] in candidates && r[i] !in seen
    ensures forall i :: 0 <= i < |candidates| && candidates[i] !in seen ==> candidates[i] in r
  {
    if candidates == [] then []
    else (if candidates[0] in seen then [] else [candidates[0]]) + FreshIds(candidates[1..], seen)
  }

  /** `Math.max(0, DAILY_LIMIT - publishedToday)`: the ids still allowed today. */
  function Slots(limit: int, publishedToday: int): (n: nat)
    ensures publishedToday + n == if publishedToday < limit then limit else publishedToday
    ensures n == 0 <==> publishedToday >= limit
  {
    if limit - publishedToday > 0 then limit - publishedToday else 0
  }

  /** `xs.slice(0, n)`. */
  function Take(xs: seq<string>, n: nat): (r: seq<string>)
    ensures |r| == if |xs| < n then |xs| else n
    ensures r == xs[..|r|]
  {
    if |xs| <= n then xs else xs[..n]
  }

  /** `seen.slice(-80000)` once `seen` has grown past 100000 entries. */
  function Trim(seen: seq<string>): (r: seq<string>)
    ensures IsSuffix(r, seen)
    ensures |seen| <= HistoryCap ==> r == seen
    ensures |seen| > HistoryCap ==> |r| == TrimKeep
  {
    if |seen| > HistoryCap then SliceFromEnd(seen, TrimKeep) else seen
  }

  /** Step 3: with a non-empty `take`, count it against the quota, append it
      to `seen` and trim; with an empty one, change nothing. */
  function Commit(s: State, take: seq<string>): (r: State)
    ensures r.day == s.day
    ensures r.publishedToday == s.publishedToday + |take|
    ensures take == [] ==> r == s
    ensures take != [] ==> IsSuffix(r.seen, s.seen + take) && |r.seen| <= HistoryCap
    ensures take != [] && |s.seen| + |take| <= HistoryCap ==> r.seen == s.seen + take
    ensures take != [] && |s.seen| + |take| > HistoryCap ==> |r.seen| == TrimKeep
  {
    if take == [] then s
    else State(s.day, s.publishedToday + |take|, Trim(s.seen + take))
  }

  /** Step 4: `seen.slice(-2000).reverse()`, the newest id first. */
  function Window(seen: seq<string>): (feed: seq<string>)
    ensures |feed| == if |seen| < FeedWindow then |seen| else FeedWindow
    ensures forall i :: 0 <= i < |feed| ==> feed[i] == seen[|seen| - 1 - i]
  {
    Reverse(SliceFromEnd(seen, FeedWindow))
  }

  /** Steps 1 to 4 of `main` for the candidate ids of this run. */
  function Run(s: State, today: string, candidates: seq<string>, limit: int): (o: Outcome)
    ensures o.state.day == today
    ensures |o.take| <= |candidates|
    ensures |o.feedIds| <= FeedWindow
  {
    var s1 := Rollover(s, today);
    var newIds := FreshIds(candidates, s1.seen);
    var take := Take(newIds, Slots(limit, s1.publishedToday));
    var s2 := Commit(s1, take);
    Outcome(s2, take, Window(s2.seen))
  }

  /** The filter keeps the candidates' order: filtering a concatenation is
      concatenating the filtered parts. */
  lemma {:induction false} FreshIdsConcat(a: seq<string>, b: seq<string>, seen: seq<string>)
    ensures FreshIds(a + b, seen) == FreshIds(a, seen) + FreshIds(b, seen)
  {
    if a == [] {
      assert a + b == b;
    } else {
      assert (a + b)[0] == a[0] && (a + b)[1..] == a[1..] + b;
      FreshIdsConcat(a[1..], b, seen);
    }
  }

  lemma {:induction false} FreshIdsDistinct(candidates: seq<string>, seen: seq<string>)
    requires Distinct(candidates)
    ensures Distinct(FreshIds(candidates, seen))
  {
    if candidates != [] {
      var rest := candidates[1..];
      assert Distinct(rest) by {
        forall i, j | 0 <= i < j < |rest| ensures rest[i] != rest[j] {
          assert rest[i] == candidates[i + 1] && rest[j] == candidates[j + 1];
        }
      }
      FreshIdsDistinct(rest, seen);
      var head := if candidates[0] in seen then [] else [candidates[0]];
      forall y | y in FreshIds(rest, seen) ensures y !in head {
      }
      AppendDistinct(head, FreshIds(rest, seen));
    }
  }

  lemma {:induction false} FreshIdsNone(candidates: seq<string>, seen: seq<string>)
    requires forall i :: 0 <= i < |candidates| ==> candidates[i] in seen
    ensures FreshIds(candidates, seen) == []
  {
    if candidates != [] {
      FreshIdsNone(candidates[1..], seen);
    }
  }

  lemma PrefixDistinct(xs: seq<string>, n: nat)
    requires Distinct(xs) && n <= |xs|
    ensures Distinct(xs[..n])
  {
  }

  /** What a run accepts: fresh candidates only, in discovery order, as many
      as the quota allows, and a fresh candidate is left behind only when the
      quota is used up. */
  lemma RunTake(s: State, today: string, candidates: seq<string>, limit: int)
    ensures var o := Run(s, today, candidates, limit);
            var s1 := Rollover(s, today);
            var newIds := FreshIds(candidates, s.seen);
            && o.take == newIds[..|o.take|]
            && |o.take| == (if |newIds| < Slots(limit, s1.publishedToday) then |newIds| else Slots(limit, s1.publishedToday))
            && (forall i :: 0 <= i < |o.take| ==> o.take[i] in candidates && o.take[i] !in s.seen)
            && (forall i :: 0 <= i < |candidates| && candidates[i] !in s.seen && candidates[i] !in o.take ==>
                  s1.publishedToday + |o.take| >= limit)
  {
  }

  /** The quota: `publishedToday` grows by exactly the number of ids taken,
      and a run that starts within today's limit ends within it; on a new day
      the count starts again from zero. */
  lemma RunQuota(s: State, today: string, candidates: seq<string>, limit: int)
    requires limit >= 0
    ensures var o := Run(s, today, candidates, limit);
            && o.state.day == today
            && o.state.publishedToday == Rollover(s, today).publishedToday + |o.take|
            && (s.day != today ==> o.state.publishedToday == |o.take| <= limit)
            && (s.publishedToday <= limit ==> o.state.publishedToday <= limit)
  {
  }

  /** Nothing else changes: with no trim the history only grows by the ids
      taken, and a run that takes nothing leaves the rolled-over state as it is. */
  lemma RunAppendOnly(s: State, today: string, candidates: seq<string>, limit: int)
    ensures var o := Run(s, today, candidates, limit);
            && (|s.seen| + |o.take| <= HistoryCap ==> o.state.seen == s.seen + o.take)
            && (o.take == [] ==> o.state == Rollover(s, today))
            && (o.take != [] ==> |o.state.seen| <= HistoryCap && IsSuffix(o.state.seen, s.seen + o.take))
  {
  }

  /** No id is ever recorded twice, provided the candidates are distinct
      (the API path de-duplicates; the local id file need not). */
  lemma RunDistinct(s: State, today: string, candidates: seq<string>, limit: int)
    requires Distinct(s.seen) && Distinct(candidates)
    ensures Distinct(Run(s, today, candidates, limit).state.seen)
    ensures Distinct(Run(s, today, candidates, limit).feedIds)
  {
    var o := Run(s, today, candidates, limit);
    var newIds := FreshIds(candidates, s.seen);
    FreshIdsDistinct(candidates, s.seen);
    PrefixDistinct(newIds, |o.take|);
    if o.take != [] {
      AppendDistinct(s.seen, o.take);
      SuffixDistinct(o.state.seen, s.seen + o.take);
    }
    WindowDistinct(o.state.seen);
  }

  lemma WindowDistinct(seen: seq<string>)
    requires Distinct(seen)
    ensures Distinct(Window(seen))
  {
    BackwardsDistinct(Window(seen), seen);
  }

  /** The feed window: the newest `min(2000, |seen|)` ids, newest first, so a
      run that accepted ids shows the last one it accepted at the top. */
  lemma RunWindow(s: State, today: string, candidates: seq<string>, limit: int)
    ensures var o := Run(s, today, candidates, limit);
            var n := |o.state.seen|;
            && |o.feedIds| == (if n < FeedWindow then n else FeedWindow)
            && (forall i :: 0 <= i < |o.feedIds| ==> o.feedIds[i] == o.state.seen[n - 1 - i])
            && (o.take != [] ==> o.feedIds[0] == o.take[|o.take| - 1])
  {
    var o := Run(s, today, candidates, limit);
    assert o.feedIds == Window(o.state.seen);
    if o.take != [] {
      var full := s.seen + o.take;
      assert o.state.seen[|o.state.seen| - 1] == full[|full| - 1];
    }
  }

  /** Re-running on the same day with the same candidates accepts nothing,
      consumes no quota and reproduces the same feed, as long as the first run
      did not trim away ids that are candidates again. */
  lemma {:induction false} RunIdempotent(s: State, today: string, candidates: seq<string>, limit: int)
    requires |s.seen| + |Run(s, today, candidates, limit).take| <= HistoryCap
    ensures var o1 := Run(s, today, candidates, limit);
            var o2 := Run(o1.state, today, candidates, limit);
            o2.take == [] && o2.state == o1.state && o2.feedIds == o1.feedIds
  {
    var o1 := Run(s, today, candidates, limit);
    var s1 := Rollover(s, today);
    var newIds1 := FreshIds(candidates, s1.seen);
    var slots1 := Slots(limit, s1.publishedToday);
    assert Rollover(o1.state, today) == o1.state;
    if |newIds1| <= slots1 {
      assert o1.take == newIds1;
      if o1.take != [] {
        assert o1.state.seen == s1.seen + newIds1;
      }
      forall i | 0 <= i < |candidates| ensures candidates[i] in o1.state.seen {
        if candidates[i] !in s1.seen {
          assert candidates[i] in newIds1;
        }
      }
      FreshIdsNone(candidates, o1.state.seen);
    } else {
      assert o1.state.publishedToday >= limit;
    }
  }

  /** A two-id quota on an empty ledger takes the first two of three fresh
      candidates and leaves the third for a later run. */
  lemma ScenarioQuotaCutsOff()
    ensures var o := Run(State("2024-01-01", 0, []), "2024-01-01", ["A", "B", "C"], 2);
            o.take == ["A", "B"] && o.state == State("2024-01-01", 2, ["A", "B"])
            && o.feedIds == ["B", "A"]
  {
    var s := State("2024-01-01", 0, []);
    assert FreshIds(["A", "B", "C"], []) == ["A", "B", "C"];
    assert Take(["A", "B", "C"], 2) == ["A", "B"];
    assert Commit(s, ["A", "B"]) == State("2024-01-01", 2, ["A", "B"]);
    var w := Window(["A", "B"]);
    assert |w| == 2 && w[0] == "B" && w[1] == "A";
    assert w == ["B", "A"];
  }

  /** With the quota already used, stale and fresh candidates alike are
      ignored and the feed still shows the existing history, newest first. */
  lemma ScenarioQuotaExhausted()
    ensures var s := State("2024-01-01", 2, ["A", "B"]);
            var o := Run(s, "2024-01-01", ["B", "C", "D"], 2);
            o.take == [] && o.state == s && o.feedIds == ["B", "A"]
  {
    var s := State("2024-01-01", 2, ["A", "B"]);
    assert Rollover(s, "2024-01-01") == s;
    assert Slots(2, 2) == 0;
    assert Take(FreshIds(["B", "C", "D"], s.seen), 0) == [];
    var w := Window(["A", "B"]);
    assert |w| == 2 && w[0] == "B" && w[1] == "A";
    assert w == ["B", "A"];
  }

  /** Candidates are not de-duplicated among themselves: an id listed twice
      in the local file is accepted, counted and recorded twice. */
  lemma ScenarioRepeatedCandidate()
    ensures var o := Run(State("2024-01-01", 0, []), "2024-01-01", ["A", "A"], 100);
            o.take == ["A", "A"] && o.state.publishedToday == 2 && !Distinct(o.state.seen)
  {
    assert FreshIds(["A", "A"], []) == ["A", "A"];
  }
}

=== FILE: patch.dfy ===
/** The lines scripts/build-rss.js adds: its own `xmlEscape`, an item link on
    the site's `/g/` path, the guid set to that link and the enclosure URL
    escaped. */
module Patch {
  import Xml

  const ItemLinkBase := "https://xrp-drop.com/g/"

  /** The patch's `xmlEscape`: the same five replacements in the same order,
      so nothing raw is left, every `&` starts an entity, decoding gives the
      input back and safe text is unchanged. */
  function XmlEscape(s: string): (r: string)
    ensures Xml.NoRawMarkup(r) && Xml.AmpersandsAreEntities(r)
    ensures Xml.Unescape(r) == s
    ensures |r| >= |s|
    ensures Xml.IsSafe(s) ==> r == s
  {
    Xml.ReplaceChainSound(s);
    Xml.ReplaceChain(s)
  }

  /** `itemLink`. */
  function ItemLink(gifId: string): (link: string)
    ensures |ItemLinkBase| <= |link| && link[..|ItemLinkBase|] == ItemLinkBase
    ensures link[|ItemLinkBase|..] == gifId
  {
    ItemLinkBase + gifId
  }

  /** The fields of the patched `<item>`. */
  datatype Item = Item(title: string, link: string, guid: string, enclosureUrl: string, pubDate: string)

  /** The pushed `<item>`: link and guid are the item link, the enclosure is
      the escaped media URL, which decodes back to the raw one and differs
      from it whenever the raw one holds a special character. */
  function PatchedItem(title: string, gifId: string, mediaUrl: string, pubDate: string): (item: Item)
    ensures item.guid == item.link
    ensures |ItemLinkBase| <= |item.link| && item.link[|ItemLinkBase|..] == gifId
    ensures item.enclosureUrl == XmlEscape(mediaUrl)
    ensures Xml.Unescape(item.enclosureUrl) == mediaUrl
    ensures Xml.NoRawMarkup(item.enclosureUrl) && Xml.AmpersandsAreEntities(item.enclosureUrl)
    ensures item.enclosureUrl == mediaUrl <==> Xml.IsSafe(mediaUrl)
    ensures item.title == title && item.pubDate == pubDate
  {
    var link := ItemLink(gifId);
    EnclosureEscaped(mediaUrl);
    Item(title, link, link, XmlEscape(mediaUrl), pubDate)
  }

  /** Distinct GIF ids give distinct guids. */
  lemma PatchedGuidsDistinct(a: string, b: string, mediaA: string, mediaB: string, t: string, d: string)
    requires a != b
    ensures PatchedItem(t, a, mediaA, d).guid != PatchedItem(t, b, mediaB, d).guid
  {
    assert ItemLink(a)[|ItemLinkBase|..] == a;
    assert ItemLink(b)[|ItemLinkBase|..] == b;
  }

  /** Escaping changes the enclosure exactly when the media URL holds a
      special character, as a query string with `&` does. */
  lemma EnclosureEscaped(mediaUrl: string)
    ensures XmlEscape(mediaUrl) == mediaUrl <==> Xml.IsSafe(mediaUrl)
  {
    Xml.ChainIsEscape(mediaUrl);
    Xml.EscapeKeepsLength(mediaUrl);
  }
}

=== FILE: results.dfy ===
/** Failure-carrying values shared by the other modules. */
module Results {

  /** A missing JSON field, an unset variable or an absent file is `None`. */
  datatype Option<T> = None | Some(value: T) {

    /** JavaScript's `x ?? fallback`. */
    function Coalesce(fallback: T): T {
      if Some? then value else fallback
    }
  }

  /** The value a JavaScript function returned, or the error it threw. */
  datatype Result<T, E> = Ok(value: T) | Err(error: E)
}

=== FILE: search_feed.dfy ===
/** scripts/build-rss.cjs: one search request, upstream records normalised
    with defaults, and one `<item>` per record whose link and guid derive from
    the id and whose enclosure is the escaped media URL. */
module SearchFeed {
  import opened Results
  import opened Seqs
  import Xml

  const DefaultTitle := "Memecoin XRP GIF by $DROP"
  const LinkBase := "https://xrp-drop.com/gifs/"

  /** One upstream GIF record: `id`, `title` and `images.original.url`, each
      `None` when missing (for the URL: when any step of the optional chain is
      missing). */
  datatype Upstream = Upstream(id: Option<string>, title: Option<string>, originalUrl: Option<string>)

  /** A record after the `.map` of `fetchGifs`; the id is copied as it is,
      possibly undefined. The `pubDate` field is clock-derived and not kept. */
  datatype Gif = Gif(id: Option<string>, title: string, mediaUrl: string)

  /** `data.data` of the JSON body: falsy, an array, or some other truthy
      value that has no `.map`. */
  datatype DataField = Falsy | Items(records: seq<Upstream>) | NotArray

  /** The parsed JSON body: `null`, or an object. */
  datatype Body = NullBody | Object(data: DataField)

  datatype Response = Response(ok: bool, status: int, body: Body)

  /** What `fetchGifs` throws: `Giphy HTTP <status>` on a non-ok response, a
      TypeError when the body is `null` or `data` cannot be mapped. */
  datatype FetchError = HttpError(status: int) | TypeError

  /** The `.map(g => ({...}))` of `fetchGifs`: the title falls back to the
      default when missing or empty, the media URL to "". */
  function Normalize(g: Upstream): (r: Gif)
    ensures r.id == g.id
    ensures r.title != ""
    ensures g.title.Some? && g.title.value != "" ==> r.title == g.title.value
    ensures g.title.None? || g.title.value == "" ==> r.title == DefaultTitle
    ensures r.mediaUrl == g.originalUrl.Coalesce("")
  {
    var title := if g.title.Some? && g.title.value != "" then g.title.value else DefaultTitle;
    Gif(g.id, title, g.originalUrl.Coalesce(""))
  }

  function NormalizeAll(records: seq<Upstream>): (gifs: seq<Gif>)
    ensures |gifs| == |records|
    ensures forall i :: 0 <= i < |records| ==> gifs[i] == Normalize(records[i])
  {
    if records == [] then [] else [Normalize(records[0])] + NormalizeAll(records[1..])
  }

  /** `fetchGifs()` given the response to its one request. */
  function FetchGifs(res: Response): (r: Result<seq<Gif>, FetchError>)
    ensures !res.ok ==> r == Err(HttpError(res.status))
    ensures res.ok && res.body == Object(Falsy) ==> r == Ok([])
    ensures res.ok && (res.body.NullBody? || res.body.data.NotArray?) ==> r == Err(TypeError)
    ensures res.ok && res.body.Object? && res.body.data.Items? ==> r == Ok(NormalizeAll(res.body.data.records))
    ensures res.ok && res.body.Object? && res.body.data.Items? ==>
              r.Ok? && |r.value| == |res.body.data.records|
              && forall i :: 0 <= i < |r.value| ==> r.value[i].id == res.body.data.records[i].id
  {
    if !res.ok then Err(HttpError(res.status))
    else match res.body
      case NullBody => Err(TypeError)
      case Object(data) =>
        match data
        case Falsy => Ok([])
        case Items(records) => Ok(NormalizeAll(records))
        case NotArray => Err(TypeError)
  }

  /** A template literal's rendering of `g.id`: `undefined` when it is missing. */
  function IdText(id: Option<string>): string {
    match id
    case Some(s) => s
    case None => "undefined"
  }

  /** The fields of one rendered `<item>`. */
  datatype Item = Item(title: string, link: string, guid: string, enclosureUrl: string, pubDate: string)

  /** The callback of `gifs.map` in `build`; `pubDate` is passed through. */
  function DeriveItem(g: Gif, pubDate: string): (item: Item)
    ensures item.link == item.guid
    ensures |LinkBase| <= |item.link| && item.link[..|LinkBase|] == LinkBase
    ensures item.link[|LinkBase|..] == IdText(g.id)
    ensures Xml.Unescape(item.enclosureUrl) == g.mediaUrl
    ensures Xml.NoRawMarkup(item.enclosureUrl) && Xml.AmpersandsAreEntities(item.enclosureUrl)
    ensures item.title == g.title
  {
    var link := LinkBase + IdText(g.id);
    Xml.ReplaceChainSound(g.mediaUrl);
    Item(g.title, link, link, Xml.ReplaceChain(g.mediaUrl), pubDate)
  }

  /** `gifs.map(...)` of `build`: one item per record, in upstream order. */
  function BuildItems(gifs: seq<Gif>, pubDates: seq<string>): (items: seq<Item>)
    requires |pubDates| == |gifs|
    ensures |items| == |gifs|
    ensures forall i :: 0 <= i < |gifs| ==> items[i] == DeriveItem(gifs[i], pubDates[i])
  {
    if gifs == [] then [] else [DeriveItem(gifs[0], pubDates[0])] + BuildItems(gifs[1..], pubDates[1..])
  }

  /** Records with distinct, present ids get distinct guids. */
  lemma GuidsDistinct(gifs: seq<Gif>, pubDates: seq<string>)
    requires |pubDates| == |gifs|
    requires forall i :: 0 <= i < |gifs| ==> gifs[i].id.Some?
    requires forall i, j :: 0 <= i < j < |gifs| ==> gifs[i].id != gifs[j].id
    ensures var items := BuildItems(gifs, pubDates);
            forall i, j :: 0 <= i < j < |items| ==> items[i].guid != items[j].guid
  {
    var items := BuildItems(gifs, pubDates);
    forall i, j | 0 <= i < j < |items|
      ensures items[i].guid != items[j].guid
    {
      assert items[i].guid[|LinkBase|..] == gifs[i].id.value;
      assert items[j].guid[|LinkBase|..] == gifs[j].id.value;
    }
  }

  /** A missing id renders like the id "undefined": two records collide on
      their guid even though only one of them has an id. */
  lemma MissingIdCollides()
    ensures DeriveItem(Gif(None, DefaultTitle, ""), "").guid
         == DeriveItem(Gif(Some("undefined"), DefaultTitle, ""), "").guid
  {
  }
}

=== FILE: seqs.dfy ===
/** Generic facts about sequences: distinctness, reversal, JavaScript's
    `slice(-n)`, and the first-seen de-duplication of `Array.from(new Set(xs))`. */
module Seqs {

  /** No element occurs twice. */
  predicate Distinct<T(==)>(xs: seq<T>) {
    forall i, j :: 0 <= i < j < |xs| ==> xs[i] != xs[j]
  }

  /** `ys` is a suffix of `xs`: what is left after dropping some oldest entries. */
  predicate IsSuffix<T(==)>(ys: seq<T>, xs: seq<T>) {
    |ys| <= |xs| && ys == xs[|xs| - |ys|..]
  }

  /** JavaScript's `Array.prototype.reverse`. */
  function Reverse<T>(xs: seq<T>): (r: seq<T>)
    ensures |r| == |xs|
    ensures forall i :: 0 <= i < |xs| ==> r[i] == xs[|xs| - 1 - i]
  {
    if xs == [] then [] else Reverse(xs[1..]) + [xs[0]]
  }

  /** JavaScript's `xs.slice(-n)`: the last `n` elements, or all of them when
      there are fewer; `slice(-0)` is `slice(0)` and keeps everything. */
  function SliceFromEnd<T>(xs: seq<T>, n: nat): (r: seq<T>)
    ensures n > 0 ==> |r| == if |xs| < n then |xs| else n
    ensures n == 0 ==> r == xs
    ensures |r| <= |xs| && r == xs[|xs| - |r|..]
  {
    if n == 0 || |xs| <= n then xs else xs[|xs| - n..]
  }

  lemma SuffixDistinct<T>(ys: seq<T>, xs: seq<T>)
    requires Distinct(xs)
    requires IsSuffix(ys, xs)
    ensures Distinct(ys)
  {
    var d := |xs| - |ys|;
    forall i, j | 0 <= i < j < |ys|
      ensures ys[i] != ys[j]
    {
      assert ys[i] == xs[d + i] && ys[j] == xs[d + j];
    }
  }

  /** Reading a distinct sequence backwards from its end gives a distinct one. */
  lemma BackwardsDistinct<T>(w: seq<T>, xs: seq<T>)
    requires |w| <= |xs| && Distinct(xs)
    requires forall i :: 0 <= i < |w| ==> w[i] == xs[|xs| - 1 - i]
    ensures Distinct(w)
  {
    forall i, j | 0 <= i < j < |w| ensures w[i] != w[j] {
      assert w[i] == xs[|xs| - 1 - i] && w[j] == xs[|xs| - 1 - j];
    }
  }

  lemma AppendDistinct<T>(xs: seq<T>, ys: seq<T>)
    requires Distinct(xs) && Distinct(ys)
    requires forall y :: y in ys ==> y !in xs
    ensures Distinct(xs + ys)
  {
    var zs := xs + ys;
    forall i, j | 0 <= i < j < |zs|
      ensures zs[i] != zs[j]
    {
      if j < |xs| {
      } else if i >= |xs| {
        assert zs[i] == ys[i - |xs|] && zs[j] == ys[j - |xs|];
      } else {
        assert zs[j] == ys[j - |xs|] && zs[i] in xs;
      }
    }
  }

  /** The position of the first occurrence of `x` in `xs`. */
  function FirstIndex<T(==)>(xs: seq<T>, x: T): (i: nat)
    requires x in xs
    ensures i < |xs| && xs[i] == x && x !in xs[..i]
  {
    if xs[0] == x then 0 else 1 + FirstIndex(xs[1..], x)
  }

  lemma FirstIndexUnique<T>(xs: seq<T>, x: T, i: nat)
    requires i < |xs| && xs[i] == x && x !in xs[..i]
    ensures FirstIndex(xs, x) == i
  {
  }

  /** `Array.from(new Set(xs))`: a Set remembers insertion order, so each value
      is kept at its first occurrence and later repeats are dropped. */
  function Dedup<T(==)>(xs: seq<T>): (r: seq<T>)
    ensures Distinct(r)
    ensures forall i :: 0 <= i < |r| ==> r[i] in xs
    ensures forall i :: 0 <= i < |xs| ==> xs[i] in r
    ensures |r| <= |xs|
  {
    if xs == [] then []
    else
      var d := Dedup(xs[..|xs| - 1]);
      var last := xs[|xs| - 1];
      assert xs == xs[..|xs| - 1] + [last];
      if last in d then d else d + [last]
  }

  /** Appending an element leaves the first position of earlier ones alone. */
  lemma FirstIndexExtend<T>(p: seq<T>, last: T, y: T)
    requires y in p
    ensures FirstIndex(p + [last], y) == FirstIndex(p, y)
  {
    var k := FirstIndex(p, y);
    assert (p + [last])[..k] == p[..k];
    FirstIndexUnique(p + [last], y, k);
  }

  /** The values of `Dedup(xs)` appear in the order of their first occurrence
      in `xs`: together with the ensures of `Dedup` this pins the result down. */
  lemma {:induction false} DedupFirstSeenOrder<T>(xs: seq<T>)
    ensures forall i, j :: 0 <= i < j < |Dedup(xs)| ==>
              FirstIndex(xs, Dedup(xs)[i]) < FirstIndex(xs, Dedup(xs)[j])
  {
    if xs != [] {
      var p := xs[..|xs| - 1];
      var last := xs[|xs| - 1];
      var d := Dedup(p);
      DedupFirstSeenOrder(p);
      forall y | y in p
        ensures FirstIndex(xs, y) == FirstIndex(p, y)
      {
        assert xs == p + [last];
        FirstIndexExtend(p, last, y);
      }
      if last !in d {
        assert last !in p;
        assert xs[..|xs| - 1] == p;
        FirstIndexUnique(xs, last, |xs| - 1);
        var r := d + [last];
        forall i, j | 0 <= i < j < |r|
          ensures FirstIndex(xs, r[i]) < FirstIndex(xs, r[j])
        {
          assert r[i] == d[i] && r[i] in p;
          if j < |d| {
            assert r[j] == d[j];
          }
        }
      }
    }
  }
}

=== FILE: strings.dfy ===
/** JavaScript string operations the scripts rely on: `String.prototype.trim`
    and `split` on a single separator character, with the lemmas that pin them down. */
module Strings {
  import opened Seqs

  /** The characters `String.prototype.trim` removes: ECMAScript WhiteSpace
      and LineTerminator code points. */
  predicate IsJsWhitespace(c: char) {
    || c == '\t' || c == '\n' || c == '\U{000B}' || c == '\U{000C}' || c == '\r'
    || c == ' ' || c == '\U{00A0}' || c == '\U{1680}'
    || ('\U{2000}' <= c <= '\U{200A}')
    || c == '\U{2028}' || c == '\U{2029}' || c == '\U{202F}' || c == '\U{205F}'
    || c == '\U{3000}' || c == '\U{FEFF}'
  }

  predicate AllWhitespace(s: string) {
    forall k :: 0 <= k < |s| ==> IsJsWhitespace(s[k])
  }

  /** Neither end of `s` is whitespace. */
  predicate IsTrimmed(s: string) {
    s == [] || (!IsJsWhitespace(s[0]) && !IsJsWhitespace(s[|s| - 1]))
  }

  /** `trimStart`: the suffix left once the leading whitespace is gone. */
  function TrimStart(s: string): (r: string)
    ensures IsSuffix(r, s)
    ensures r == [] || !IsJsWhitespace(r[0])
  {
    if s != [] && IsJsWhitespace(s[0]) then TrimStart(s[1..]) else s
  }

  /** What `trimStart` drops is whitespace. */
  lemma {:induction false} TrimStartDrops(s: string)
    ensures AllWhitespace(s[..|s| - |TrimStart(s)|])
  {
    if s != [] && IsJsWhitespace(s[0]) {
      var r := TrimStart(s[1..]);
      TrimStartDrops(s[1..]);
      assert s[..|s| - |r|] == [s[0]] + s[1..][..|s| - 1 - |r|];
    }
  }

  /** `trimEnd`: the prefix left once the trailing whitespace is gone. */
  function TrimEnd(s: string): (r: string)
    ensures |r| <= |s| && r == s[..|r|]
    ensures r == [] || !IsJsWhitespace(r[|r| - 1])
  {
    if s != [] && IsJsWhitespace(s[|s| - 1]) then TrimEnd(s[..|s| - 1]) else s
  }

  /** What `trimEnd` drops is whitespace. */
  lemma {:induction false} TrimEndDrops(s: string)
    ensures AllWhitespace(s[|TrimEnd(s)|..])
  {
    if s != [] && IsJsWhitespace(s[|s| - 1]) {
      var r := TrimEnd(s[..|s| - 1]);
      TrimEndDrops(s[..|s| - 1]);
      assert s[|r|..] == s[..|s| - 1][|r|..] + [s[|s| - 1]];
    }
  }

  /** `String.prototype.trim`: `s` with its leading and trailing whitespace
      removed. */
  function Trim(s: string): (r: string)
    ensures IsTrimmed(r) && |r| <= |s|
  {
    var t := TrimStart(s);
    var r := TrimEnd(t);
    assert r != [] ==> r[0] == t[0];
    r
  }

  /** What `trim` removes is whitespace only: the result is a contiguous
      piece `s[i..i + |r|]` of its input with whitespace on both sides. */
  lemma TrimIsPiece(s: string)
    ensures var r := Trim(s);
            exists i :: 0 <= i <= |s| - |r| && r == s[i..i + |r|]
              && AllWhitespace(s[..i]) && AllWhitespace(s[i + |r|..])
  {
    TrimStartDrops(s);
    TrimEndDrops(TrimStart(s));
    TrimPiece(s, TrimStart(s), TrimEnd(TrimStart(s)));
  }

  /** Dropping whitespace at the front and then at the back leaves a piece
      of the original string bounded by whitespace on both sides. */
  lemma TrimPiece(s: string, t: string, r: string)
    requires IsSuffix(t, s) && AllWhitespace(s[..|s| - |t|])
    requires |r| <= |t| && r == t[..|r|] && AllWhitespace(t[|r|..])
    requires t == [] || !IsJsWhitespace(t[0])
    requires r == [] || !IsJsWhitespace(r[|r| - 1])
    ensures IsTrimmed(r)
    ensures exists i :: 0 <= i <= |s| - |r| && r == s[i..i + |r|]
              && AllWhitespace(s[..i]) && AllWhitespace(s[i + |r|..])
  {
    var i := |s| - |t|;
    if r != [] {
      assert r[0] == t[0];
    }
    assert r == s[i..i + |r|];
    assert s[i + |r|..] == t[|r|..];
  }

  /** `s.split(c)`: the pieces between occurrences of `c`; an empty string
      splits into one empty piece and a trailing separator gives a trailing
      empty piece. */
  function SplitOn(s: string, c: char): (r: seq<string>)
    ensures |r| >= 1
    ensures forall k :: 0 <= k < |r| ==> c !in r[k]
  {
    if s == [] then [[]]
    else
      var rest := SplitOn(s[1..], c);
      if s[0] == c then [[]] + rest else [[s[0]] + rest[0]] + rest[1..]
  }

  /** `pieces.join(c)`. */
  function Join(pieces: seq<string>, c: char): string
    requires |pieces| >= 1
  {
    if |pieces| == 1 then pieces[0] else pieces[0] + [c] + Join(pieces[1..], c)
  }

  /** Splitting and joining on the same separator gives back the string. */
  lemma {:induction false} JoinSplit(s: string, c: char)
    ensures Join(SplitOn(s, c), c) == s
  {
    if s != [] {
      var rest := SplitOn(s[1..], c);
      JoinSplit(s[1..], c);
      if s[0] != c {
        var r := SplitOn(s, c);
        assert r[0] == [s[0]] + rest[0];
        if |rest| > 1 {
          assert r[1..] == rest[1..];
        }
      }
    }
  }
}

=== FILE: uri.dfy ===
/** `encodeURIComponent` (ECMAScript, section "encodeURIComponent ( uriComponent )"):
    letters, digits and `- _ . ! ~ * ' ( )` are kept; every other code point is
    written as the `%XX` escapes of its UTF-8 bytes, with upper-case hex digits. */
module Uri {

  predicate IsAsciiAlnum(c: char) {
    ('A' <= c <= 'Z') || ('a' <= c <= 'z') || ('0' <= c <= '9')
  }

  /** The characters `encodeURIComponent` leaves unescaped. */
  predicate IsUnescaped(c: char) {
    IsAsciiAlnum(c) || c == '-' || c == '_' || c == '.' || c == '!'
    || c == '~' || c == '*' || c == '\'' || c == '(' || c == ')'
  }

  predicate AllUnescaped(s: string) {
    forall i :: 0 <= i < |s| ==> IsUnescaped(s[i])
  }

  /** The UTF-8 encoding of a code point. */
  function Utf8(cp: nat): (bytes: seq<nat>)
    requires cp <= 0x10FFFF
    ensures 1 <= |bytes| <= 4
    ensures forall k :: 0 <= k < |bytes| ==> bytes[k] < 256
  {
    if cp < 0x80 then [cp]
    else if cp < 0x800 then [0xC0 + cp / 0x40, 0x80 + cp % 0x40]
    else if cp < 0x10000 then
      [0xE0 + cp / 0x1000, 0x80 + (cp / 0x40) % 0x40, 0x80 + cp % 0x40]
    else
      [0xF0 + cp / 0x40000, 0x80 + (cp / 0x1000) % 0x40, 0x80 + (cp / 0x40) % 0x40, 0x80 + cp % 0x40]
  }

  /** The digits `encodeURIComponent` writes after `%`. */
  const HexDigits := "0123456789ABCDEF"

  /** The value of an upper-case hexadecimal digit. */
  function HexValue(c: char): nat {
    if '0' <= c <= '9' then c as nat - '0' as nat
    else if 'A' <= c <= 'F' then c as nat - 'A' as nat + 10
    else 0
  }

  /** The digit of `0123456789ABCDEF` at position `n`. */
  function HexDigit(n: nat): (c: char)
    requires n < 16
    ensures c in HexDigits && IsAsciiAlnum(c) && HexValue(c) == n
  {
    var c := if n < 10 then ('0' as nat + n) as char else ('A' as nat + n - 10) as char;
    assert c == HexDigits[n];
    c
  }

  /** `%XX` for one byte: the two digits read back as the byte. */
  function PercentByte(b: nat): (r: string)
    requires b < 256
    ensures |r| == 3 && r[0] == '%' && r[1] in HexDigits && r[2] in HexDigits
    ensures IsAsciiAlnum(r[1]) && IsAsciiAlnum(r[2])
    ensures 16 * HexValue(r[1]) + HexValue(r[2]) == b
  {
    ['%', HexDigit(b / 16), HexDigit(b % 16)]
  }

  /** One `%XX` triple per byte, in order. */
  function PercentBytes(bytes: seq<nat>): (r: string)
    requires forall k :: 0 <= k < |bytes| ==> bytes[k] < 256
    ensures |r| == 3 * |bytes|
    ensures forall k :: 0 <= k < |bytes| ==> r[3 * k..3 * k + 3] == PercentByte(bytes[k])
    ensures forall i :: 0 <= i < |r| ==> r[i] == '%' || IsUnescaped(r[i])
  {
    if bytes == [] then []
    else
      var rest := PercentBytes(bytes[1..]);
      PercentBytesCons(bytes, rest);
      PercentByte(bytes[0]) + rest
  }

  /** The triples of the tail, behind the triple of the first byte, are the
      triples of the whole. */
  lemma PercentBytesCons(bytes: seq<nat>, rest: string)
    requires |bytes| > 0 && forall k :: 0 <= k < |bytes| ==> bytes[k] < 256
    requires |rest| == 3 * (|bytes| - 1)
    requires forall k :: 0 <= k < |bytes| - 1 ==> rest[3 * k..3 * k + 3] == PercentByte(bytes[k + 1])
    requires forall i :: 0 <= i < |rest| ==> rest[i] == '%' || IsUnescaped(rest[i])
    ensures var r := PercentByte(bytes[0]) + rest;
            && |r| == 3 * |bytes|
            && (forall k :: 0 <= k < |bytes| ==> r[3 * k..3 * k + 3] == PercentByte(bytes[k]))
            && (forall i :: 0 <= i < |r| ==> r[i] == '%' || IsUnescaped(r[i]))
  {
    var head := PercentByte(bytes[0]);
    TriplesCons(head, rest, bytes);
    assert IsUnescaped(head[1]) && IsUnescaped(head[2]);
    AlphabetCons(head, rest);
  }

  /** Prefixing triple `head` shifts the triples of `rest` up by one. */
  lemma TriplesCons(head: string, rest: string, bytes: seq<nat>)
    requires |bytes| > 0 && forall k :: 0 <= k < |bytes| ==> bytes[k] < 256
    requires head == PercentByte(bytes[0])
    requires |rest| == 3 * (|bytes| - 1)
    requires forall k :: 0 <= k < |bytes| - 1 ==> rest[3 * k..3 * k + 3] == PercentByte(bytes[k + 1])
    ensures forall k :: 0 <= k < |bytes| ==> (head + rest)[3 * k..3 * k + 3] == PercentByte(bytes[k])
  {
    var r := head + rest;
    TriplesShift(head, rest, |bytes| - 1);
    assert r[..3] == head;
    forall k | 1 <= k < |bytes|
      ensures r[3 * k..3 * k + 3] == PercentByte(bytes[k])
    {
      assert r[3 * k..3 * k + 3] == rest[3 * (k - 1)..3 * (k - 1) + 3];
    }
  }

  /** Two strings over the `%XX` alphabet concatenate to one. */
  lemma AlphabetCons(head: string, rest: string)
    requires forall i :: 0 <= i < |head| ==> head[i] == '%' || IsUnescaped(head[i])
    requires forall i :: 0 <= i < |rest| ==> rest[i] == '%' || IsUnescaped(rest[i])
    ensures forall i :: 0 <= i < |head + rest| ==> (head + rest)[i] == '%' || IsUnescaped((head + rest)[i])
  {
  }

  /** Behind a leading triple, triple `k` of the rest is triple `k + 1`. */
  lemma TriplesShift(head: string, rest: string, n: nat)
    requires |head| == 3 && |rest| == 3 * n
    ensures forall k :: 1 <= k <= n ==>
              (head + rest)[3 * k..3 * k + 3] == rest[3 * (k - 1)..3 * (k - 1) + 3]
  {
    forall k | 1 <= k <= n
      ensures (head + rest)[3 * k..3 * k + 3] == rest[3 * (k - 1)..3 * (k - 1) + 3]
    {
      assert (head + rest)[3 * k..] == rest[3 * k - 3..];
    }
  }

  function EncodeChar(c: char): (r: string)
    ensures |r| >= 1
    ensures forall i :: 0 <= i < |r| ==> r[i] == '%' || IsUnescaped(r[i])
  {
    if IsUnescaped(c) then [c] else PercentBytes(Utf8(c as nat))
  }

  /** `encodeURIComponent(s)`: every character of the result is an unescaped
      one or the `%` of an escape, so no `&`, `<`, `>`, `"`, `/`, `?` or `=`
      survives; and the result is never shorter than `s`. */
  function EncodeComponent(s: string): (r: string)
    ensures |r| >= |s|
    ensures forall i :: 0 <= i < |r| ==> r[i] == '%' || IsUnescaped(r[i])
  {
    if s == [] then [] else EncodeChar(s[0]) + EncodeComponent(s[1..])
  }

  /** A component made of unescaped characters only is returned unchanged. */
  lemma {:induction false} EncodeUnescaped(s: string)
    requires AllUnescaped(s)
    ensures EncodeComponent(s) == s
  {
    if s != [] {
      EncodeUnescaped(s[1..]);
    }
  }

  /** A character that needs escaping becomes one to four `%XX` triples,
      triple `k` being byte `k` of its UTF-8 encoding. */
  lemma EncodeCharEscaped(c: char)
    requires !IsUnescaped(c)
    ensures var bytes := Utf8(c as nat);
            && |EncodeChar(c)| == 3 * |bytes| && 3 <= |EncodeChar(c)| <= 12
            && forall k :: 0 <= k < |bytes| ==> EncodeChar(c)[3 * k..3 * k + 3] == PercentByte(bytes[k])
  {
  }
}

=== FILE: xml.dfy ===
/** `xmlEscape` of scripts/build-rss.cjs and of the scripts/build-rss.js patch:
    five global single-character replacements applied in order, producing the
    predefined entities of XML 1.0 (section 4.6, Predefined Entities). */
module Xml {

  /** The characters that must not appear raw in an attribute value or text. */
  predicate IsSpecial(c: char) {
    c == '&' || c == '<' || c == '>' || c == '"' || c == '\''
  }

  /** `s` has no raw `<`, `>`, `"` or `'`. */
  predicate NoRawMarkup(s: string) {
    forall i :: 0 <= i < |s| ==> s[i] != '<' && s[i] != '>' && s[i] != '"' && s[i] != '\''
  }

  predicate StartsWith(s: string, p: string) {
    |p| <= |s| && s[..|p|] == p
  }

  /** Some predefined entity reference starts at position `i` of `s`. */
  predicate EntityAt(s: string, i: nat)
    requires i <= |s|
  {
    var t := s[i..];
    StartsWith(t, "&amp;") || StartsWith(t, "&lt;") || StartsWith(t, "&gt;")
    || StartsWith(t, "&quot;") || StartsWith(t, "&apos;")
  }

  /** Every `&` of `s` begins a predefined entity reference. */
  predicate AmpersandsAreEntities(s: string) {
    forall i :: 0 <= i < |s| && s[i] == '&' ==> EntityAt(s, i)
  }

  /** One `.replace(/c/g, rep)` call with a one-character pattern and a
      replacement string free of `$` patterns. */
  function ReplaceAll(s: string, c: char, rep: string): string {
    if s == [] then [] else (if s[0] == c then rep else [s[0]]) + ReplaceAll(s[1..], c, rep)
  }

  /** The replacements in the order the source chains them; `&` comes first so
      that the `&` of the later entities is not escaped again. */
  const Replacements: seq<(char, string)> :=
    [('&', "&amp;"), ('<', "&lt;"), ('>', "&gt;"), ('"', "&quot;"), ('\'', "&apos;")]

  function ApplyAll(s: string, reps: seq<(char, string)>): string
    decreases reps
  {
    if reps == [] then s else ApplyAll(ReplaceAll(s, reps[0].0, reps[0].1), reps[1..])
  }

  /** `xmlEscape` as the scripts write it. */
  function ReplaceChain(s: string): string {
    ApplyAll(s, Replacements)
  }

  /** The entity for a special character, the character itself otherwise. */
  function EscapeChar(c: char): string {
    match c
    case '&' => "&amp;"
    case '<' => "&lt;"
    case '>' => "&gt;"
    case '"' => "&quot;"
    case '\'' => "&apos;"
    case _ => [c]
  }

  /** A special character becomes a longer entity free of raw markup; any
      other character stays as it is. */
  lemma EscapeCharShape(c: char)
    ensures !IsSpecial(c) ==> EscapeChar(c) == [c]
    ensures IsSpecial(c) ==> |EscapeChar(c)| > 1 && NoRawMarkup(EscapeChar(c))
  {
  }

  /** Escaping defined one character at a time: the reference the replace
      chain is proved equal to. */
  function Escape(s: string): (r: string)
    ensures |r| >= |s|
    ensures NoRawMarkup(r)
  {
    if s == [] then []
    else
      EscapeCharShape(s[0]);
      EscapeChar(s[0]) + Escape(s[1..])
  }

  /** Decoding of the five predefined entities; any other `&` is kept. */
  function Unescape(s: string): string {
    if s == [] then []
    else if StartsWith(s, "&amp;") then "&" + Unescape(s[5..])
    else if StartsWith(s, "&lt;") then "<" + Unescape(s[4..])
    else if StartsWith(s, "&gt;") then ">" + Unescape(s[4..])
    else if StartsWith(s, "&quot;") then "\"" + Unescape(s[6..])
    else if StartsWith(s, "&apos;") then "'" + Unescape(s[6..])
    else [s[0]] + Unescape(s[1..])
  }

  lemma ReplaceAllConcat(a: string, b: string, c: char, rep: string)
    ensures ReplaceAll(a + b, c, rep) == ReplaceAll(a, c, rep) + ReplaceAll(b, c, rep)
  {
    if a == [] {
      assert a + b == b;
    } else {
      var head := if a[0] == c then rep else [a[0]];
      assert (a + b)[0] == a[0] && (a + b)[1..] == a[1..] + b;
      ReplaceAllConcat(a[1..], b, c, rep);
      assert ReplaceAll(a + b, c, rep) == head + ReplaceAll(a[1..] + b, c, rep);
    }
  }

  lemma ReplaceAllSingle(x: char, c: char, rep: string)
    ensures ReplaceAll([x], c, rep) == if x == c then rep else [x]
  {
    assert [x][1..] == [];
  }

  lemma ReplaceAllAbsent(s: string, c: char, rep: string)
    requires c !in s
    ensures ReplaceAll(s, c, rep) == s
  {
  }

  lemma ApplyAllConcat(a: string, b: string, reps: seq<(char, string)>)
    ensures ApplyAll(a + b, reps) == ApplyAll(a, reps) + ApplyAll(b, reps)
    decreases reps
  {
    if reps != [] {
      ReplaceAllConcat(a, b, reps[0].0, reps[0].1);
      ApplyAllConcat(ReplaceAll(a, reps[0].0, reps[0].1), ReplaceAll(b, reps[0].0, reps[0].1), reps[1..]);
    }
  }

  /** Once no pattern of `reps` occurs in `s`, applying them changes nothing. */
  lemma ApplyAllAbsent(s: string, reps: seq<(char, string)>)
    requires forall k :: 0 <= k < |reps| ==> reps[k].0 !in s
    ensures ApplyAll(s, reps) == s
  {
    if reps != [] {
      ReplaceAllAbsent(s, reps[0].0, reps[0].1);
      ApplyAllAbsent(s, reps[1..]);
    }
  }

  /** Replacements that do not match `c` leave `[c]` alone. */
  lemma ApplyAllSkip(c: char, reps: seq<(char, string)>, k: nat)
    requires k <= |reps|
    requires forall j :: 0 <= j < k ==> reps[j].0 != c
    ensures ApplyAll([c], reps) == ApplyAll([c], reps[k..])
    decreases k
  {
    if k > 0 {
      ReplaceAllSingle(c, reps[0].0, reps[0].1);
      ApplyAllSkip(c, reps[1..], k - 1);
      assert reps[1..][k - 1..] == reps[k..];
    }
  }

  /** The replacement matching `c` yields its entity, and no later pattern
      occurs in that entity. */
  lemma ApplyAllHit(c: char, reps: seq<(char, string)>, k: nat)
    requires k < |reps| && reps[k].0 == c
    requires forall j :: 0 <= j < k ==> reps[j].0 != c
    requires forall j :: k < j < |reps| ==> reps[j].0 !in reps[k].1
    ensures ApplyAll([c], reps) == reps[k].1
  {
    ApplyAllSkip(c, reps, k);
    ReplaceAllSingle(c, reps[k].0, reps[k].1);
    ApplyAllAbsent(reps[k].1, reps[k + 1..]);
  }

  lemma ChainOnChar(c: char)
    ensures ReplaceChain([c]) == EscapeChar(c)
  {
    var r := Replacements;
    if c == '&' {
      ApplyAllHit(c, r, 0);
    } else if c == '<' {
      ApplyAllHit(c, r, 1);
    } else if c == '>' {
      ApplyAllHit(c, r, 2);
    } else if c == '"' {
      ApplyAllHit(c, r, 3);
    } else if c == '\'' {
      ApplyAllHit(c, r, 4);
    } else {
      ApplyAllSkip(c, r, 5);
    }
  }

  /** The five chained replacements compute exactly the per-character escape. */
  lemma {:induction false} ChainIsEscape(s: string)
    ensures ReplaceChain(s) == Escape(s)
  {
    if s != [] {
      assert s == [s[0]] + s[1..];
      ApplyAllConcat([s[0]], s[1..], Replacements);
      ChainOnChar(s[0]);
      ChainIsEscape(s[1..]);
    }
  }

  lemma UnescapeAmp(t: string)
    ensures Unescape("&amp;" + t) == "&" + Unescape(t)
  {
    var e := "&amp;" + t;
    assert e[..5] == "&amp;" && e[5..] == t;
  }

  lemma UnescapeLt(t: string)
    ensures Unescape("&lt;" + t) == "<" + Unescape(t)
  {
    var e := "&lt;" + t;
    assert e[..4] == "&lt;" && e[4..] == t && e[1] == 'l';
  }

  lemma UnescapeGt(t: string)
    ensures Unescape("&gt;" + t) == ">" + Unescape(t)
  {
    var e := "&gt;" + t;
    assert e[..4] == "&gt;" && e[4..] == t && e[1] == 'g';
  }

  lemma UnescapeQuot(t: string)
    ensures Unescape("&quot;" + t) == "\"" + Unescape(t)
  {
    var e := "&quot;" + t;
    assert e[..6] == "&quot;" && e[6..] == t && e[1] == 'q';
  }

  lemma UnescapeApos(t: string)
    ensures Unescape("&apos;" + t) == "'" + Unescape(t)
  {
    var e := "&apos;" + t;
    assert e[..6] == "&apos;" && e[6..] == t && e[1] == 'a' && e[2] == 'p';
  }

  /** A character other than `&` starts no entity and decodes as itself. */
  lemma UnescapePlain(c: char, t: string)
    requires c != '&'
    ensures Unescape([c] + t) == [c] + Unescape(t)
  {
    var e := [c] + t;
    assert e[0] == c && e[1..] == t;
    assert !StartsWith(e, "&amp;") && !StartsWith(e, "&lt;") && !StartsWith(e, "&gt;")
        && !StartsWith(e, "&quot;") && !StartsWith(e, "&apos;") by {
      assert e[..1] == [c];
    }
  }

  lemma UnescapeAfterChar(c: char, t: string)
    ensures Unescape(EscapeChar(c) + t) == [c] + Unescape(t)
  {
    if c == '&' {
      UnescapeAmp(t);
    } else if c == '<' {
      UnescapeLt(t);
    } else if c == '>' {
      UnescapeGt(t);
    } else if c == '"' {
      UnescapeQuot(t);
    } else if c == '\'' {
      UnescapeApos(t);
    } else {
      UnescapePlain(c, t);
    }
  }

  /** Decoding the five entities recovers the escaped string. */
  lemma {:induction false} UnescapeEscape(s: string)
    ensures Unescape(Escape(s)) == s
  {
    if s != [] {
      UnescapeAfterChar(s[0], Escape(s[1..]));
      UnescapeEscape(s[1..]);
    }
  }

  lemma EntityAtShift(a: string, b: string, i: nat)
    requires i <= |b|
    ensures EntityAt(a + b, |a| + i) == EntityAt(b, i)
  {
    assert (a + b)[|a| + i..] == b[i..];
  }

  /** An escaped character carries `&` at most at its first position, and
      there only as the start of its entity. */
  lemma EscapeCharAmpersand(c: char, rest: string)
    ensures forall j :: 0 < j < |EscapeChar(c)| ==> EscapeChar(c)[j] != '&'
    ensures EscapeChar(c)[0] == '&' ==> EntityAt(EscapeChar(c) + rest, 0)
  {
    var t := (EscapeChar(c) + rest)[0..];
    assert t[..|EscapeChar(c)|] == EscapeChar(c);
  }

  /** Every `&` the escape emits is the start of an entity. */
  lemma {:induction false} EscapeAmpersands(s: string)
    ensures AmpersandsAreEntities(Escape(s))
  {
    if s != [] {
      var e := EscapeChar(s[0]);
      var rest := Escape(s[1..]);
      EscapeAmpersands(s[1..]);
      EscapeCharAmpersand(s[0], rest);
      var r := e + rest;
      forall i | 0 <= i < |r| && r[i] == '&'
        ensures EntityAt(r, i)
      {
        if i >= |e| {
          EntityAtShift(e, rest, i - |e|);
        }
      }
    }
  }

  /** `s` holds none of `& < > " '`. */
  predicate IsSafe(s: string) {
    forall i :: 0 <= i < |s| ==> !IsSpecial(s[i])
  }

  lemma SafeCons(s: string)
    requires s != []
    ensures IsSafe(s) <==> !IsSpecial(s[0]) && IsSafe(s[1..])
  {
    if !IsSpecial(s[0]) && IsSafe(s[1..]) {
      forall i | 0 < i < |s| ensures !IsSpecial(s[i]) {
        assert s[i] == s[1..][i - 1];
      }
    }
  }

  /** The escape lengthens its input exactly when there is something to
      escape, and otherwise returns it unchanged. */
  lemma {:induction false} EscapeKeepsLength(s: string)
    ensures |Escape(s)| == |s| <==> IsSafe(s)
    ensures IsSafe(s) ==> Escape(s) == s
  {
    if s != [] {
      EscapeKeepsLength(s[1..]);
      EscapeCharShape(s[0]);
      SafeCons(s);
    }
  }

  /** The properties of `xmlEscape` as written. */
  lemma ReplaceChainSound(s: string)
    ensures NoRawMarkup(ReplaceChain(s))
    ensures AmpersandsAreEntities(ReplaceChain(s))
    ensures Unescape(ReplaceChain(s)) == s
    ensures |ReplaceChain(s)| >= |s|
    ensures IsSafe(s) ==> ReplaceChain(s) == s
  {
    ChainIsEscape(s);
    EscapeAmpersands(s);
    UnescapeEscape(s);
    EscapeKeepsLength(s);
  }
}
